=== FILE: README.md ===
# Standup bot core, modelled in Dafny

This project models the core of a Discord standup bot:
- a standup type is registered on a chat channel as an event;
- members of the channel are added to the event as attendees;
- a periodic `initiate` pass creates each day's standup and enrols and notifies the attendees;
- participants answer the type's questions through a web form;
- `send_summary` publishes the answers to the channel once everyone has filled in or the publish delay has passed.

The database is a value of type `Store.Store`:
- every table is a sequence, and a row's primary key is its index;
- users are a map keyed by their Discord id.

Several inputs the code obtains from outside become parameters:
- each user's local date and time (`clock`);
- the current instant (`now`);
- the random single-use tokens (`mint`, `drawn`);
- the formatted date text, the public URL and the id the chat service gives the pinned header message.

Modules:
- `Schedule`:
  - dates as proleptic Gregorian ordinals, times of day in microseconds;
  - the standup type and its weekday gate.
- `Store`: the rows, the lookups, `StandupParticipation.save`, and the invariants (growth, uniqueness, spacing).
- `Events`: `create_from_discord` and `add_participant_from_discord`.
- `Lifecycle`: `StandupEvent.initiate`.
- `LifecycleProofs`:
  - uniqueness and eligibility of what `initiate` creates;
  - `initiate` is idempotent for a fixed clock.
- `Ordering`: code-point string order and the sort behind `order_by('user__first_name')`.
- `Summary`:
  - the `active()` and `inactive()` participant lists;
  - the rendering of answers;
  - the gating and messages of `send_summary`.
- `Form`:
  - `StandupForm`'s fields;
  - `StandupForm.save`, including how the `(participation, question)` uniqueness of answers stops it.

Two behaviours of the code shape the model:
- `send_summary` does not publish when no participant is in `active()` (filled in and not read-only), even if some participants are listed.
- The form creates answers; it never updates them. A question that already has an answer therefore stops the save at that question. This is the `Conflict` outcome.

## Model

| member | source | states |
|---|---|---|
| Schedule.InTimeslot | standup/models.py:75-103 | The gate is true exactly when the type's flag for the weekday of the local date is set. Monday is weekday 0. |
| Schedule.InTimeslotIsWeekly | standup/models.py:75-103 | The gate ignores the time of day and repeats every seven days. |
| Store.FindAnswer | standup/models.py:378-384 | The answer found is the first row of that participation and question, and one is found exactly when such a row exists. |
| Store.FindStandup | standup/models.py:188 | The standup found is the first of the event on that date, and none is found exactly when the event has no standup on that date. |
| Store.FindParticipation | standup/models.py:213 | The participation found is the first of that user in the standup, and none is found exactly when the user has none there. |
| Store.SaveParticipation | standup/models.py:363-372 | Saving draws a token only when the row has none, and the drawn token is 48 characters. Saving a completed participation sets its standup's rebuild flag. No other row or table changes. |
| Store.SaveParticipationIsIdempotent | standup/models.py:363-372 | Saving a row again as stored changes nothing: the token is never redrawn. |
| Events.EnsureUser | standup/models.py:135 | The member's user row exists afterwards. A missing row is created from the display name and discriminator. Existing rows are never altered. |
| Events.EnsureUserIsIdempotent | standup/models.py:150-151 | Fetching the same member again, even under new names, changes nothing. |
| Events.FindEvent | standup/models.py:153-158 | The event found is the first one of that type on that channel, and one is found exactly when one exists. |
| Events.CreateFromDiscord | standup/models.py:129-143 | Registration succeeds exactly when the channel has no event of the type. It then appends one event row created by the requester. Otherwise no event is added. The requester's user row is ensured either way. |
| Events.CreateKeepsEventsUnique | standup/models.py:139-143 | Registering never gives a channel two events of one type. |
| Events.CreateTwiceIsRefused | standup/models.py:139-140 | A second registration of the type on the channel is refused, whoever asks. Asked by the same member, it leaves the store unchanged. |
| Events.AddParticipantFromDiscord | standup/models.py:145-166 | With no event of the type on the channel, the reply is the "no standup" message. Otherwise the member is added exactly when they do not attend the first such event. They are added as an active attendee with the given read-only flag; the refusal is "Already in this standup!". Both user rows are ensured in every case. |
| Events.AddKeepsAttendeesUnique | standup/models.py:161 | Adding never makes a user attend one event twice. |
| Events.AddKeepsRowsKnown | standup/models.py:149-161 | Every attendee's user and event rows still exist after adding. |
| Events.AddTwiceIsRefused | standup/models.py:161-166 | Adding the same member again is refused with the already-attending message and adds no attendee. |
| Events.CreateThenAddSucceeds | standup/models.py:129-166 | A member can always be added to a standup just registered on the channel. They are added to that new event. |
| Lifecycle.ActiveAttendees | standup/models.py:186 | The list holds exactly the attendee rows of the event that are active. |
| Lifecycle.AddStandup | standup/models.py:205-207 | Creating today's standup appends one row of the event on that date, not pinned and not to rebuild; every other row is kept. |
| Lifecycle.GetOrCreate | standup/models.py:213 | When the user has a participation in the standup the store is unchanged. Otherwise one row is appended for that user and standup, with the attendee's read-only flag, a token, not completed and not notified. Either way the user has a participation there afterwards. |
| Lifecycle.MarkNotified | standup/models.py:215-218 | Marking a participation notified changes only that participation row among the participations: it becomes notified and keeps its token if it had one, and it is the only row newly notified. Its standup is flagged for a rebuild exactly when the row is already completed (standup/models.py:368-370); every other standup is unchanged. |
| Lifecycle.EnrollKeepsParticipationsUnique | standup/models.py:209-213 | Enrolling never gives a user a second participation in a standup. |
| Lifecycle.Enroll | standup/models.py:205-218 | Visiting a standup that exists leaves the user with a participation in it and creates no standup. A new participation is created only when the user had none, copies the attendee's read-only flag, has a token and is not completed. A user whose local time is past the due time ends up notified there. At most one participation is newly notified, and it is the one returned. |
| Lifecycle.Visit | standup/models.py:186-218 | One attendee's turn of the loop only grows the store and creates at most one standup. A created standup belongs to the event on the attendee's local date, and the attendee was eligible. At most one participation is newly notified, it is due, and it is the one returned. |
| Lifecycle.Run | standup/models.py:186-219 | Visiting the attendees one after another only grows the store. It returns every participation it newly notified exactly once, and each is due. |
| Lifecycle.Initiate | standup/models.py:178-220 | `initiate` always reports success. The store only grows. The returned list holds each participation it newly notified exactly once. Each of those is notified, belongs to the event's standup on its user's local date, and its user's local time is past the due time. |
| LifecycleProofs.InitiateKeepsUniqueness | standup/models.py:186-213 | A call of `initiate` that no other call overlaps never creates a second standup per (event, date) or a second participation per (standup, user). With a positive minimum gap, the event's standups stay spaced by more than that many days. |
| LifecycleProofs.InitiateSkipsIneligible | standup/models.py:186-203 | A user is not enrolled when none of their active attendances is eligible: not scheduled that weekday, or muted through the local date. When no active attendee is eligible, no standup is created. |
| LifecycleProofs.InitiateEnrollsEligible | standup/models.py:186-213 | Every participation `initiate` creates belongs to an eligible active attendee. It copies that attendee's read-only flag, has a token and is not completed. |
| LifecycleProofs.InitiateEnrollsEveryEligible | standup/models.py:186-213 | Conversely, after `initiate` every eligible active attendee holds a participation in the event's standup for their local date. The only exception is when no such standup exists because the minimum gap blocks it. |
| LifecycleProofs.InitiateNotifiesEveryoneDue | standup/models.py:205-218 | Take an eligible active attendee whose local time is past the due time. If, after `initiate`, the event has a standup on their local date, the attendee holds a notified participation in it. |
| LifecycleProofs.RunQuietsAll | standup/models.py:186-218 | After the attendees are visited in turn, each of them is settled. Either they are ineligible, or the minimum gap blocks their date's standup, or they are enrolled in it and either already notified or not yet due. |
| LifecycleProofs.InitiateIsIdempotent | standup/models.py:178-220 | A second `initiate` with the same clocks changes nothing and notifies nobody, whatever tokens it could draw. |
| LifecycleProofs.RunCreatesNoDuplicates | standup/models.py:186-213 | The attendee loop creates no duplicate standups or participations and respects the minimum gap. |
| LifecycleProofs.RunEnrollsOnlyEligible | standup/models.py:186-213 | Every participation the attendee loop creates is backed by an eligible attendee of the loop. |
| Ordering.LexLeTransitive | standup/models.py:328 | The string order used for sorting is transitive. |
| Ordering.LexLeAntisymmetric | standup/models.py:328 | Two strings that sort no later than each other are equal. |
| Ordering.SortByKey | standup/models.py:328 | Sorting yields a list ordered by key that is a permutation of its input. |
| Ordering.SortKeepsIds | standup/models.py:328 | Sorting keeps exactly the row ids it was given. |
| Ordering.SortKeepsIdsDistinct | standup/models.py:328 | Sorting rows with distinct ids never repeats an id. |
| Summary.Active | standup/models.py:327-328 | `active()` lists exactly the standup's participations that are completed and not read-only, ordered by first name. No participation is listed twice. |
| Summary.Inactive | standup/models.py:330-331 | `inactive()` lists exactly the standup's participations that are neither completed nor read-only, ordered by first name. No participation is listed twice. |
| Summary.InactiveListedIffAny | standup/models.py:257 | The `inactive()` list is non-empty exactly when some participation of the standup is neither completed nor read-only. |
| Summary.ActiveListedIffAny | standup/models.py:270 | The `active()` list is non-empty exactly when some participation of the standup is completed and not read-only. |
| Summary.ActiveInactivePartition | standup/models.py:327-331 | Each participation of the standup that is not read-only is in exactly one of the two lists. Read-only ones are in neither. |
| Summary.FilledText | standup/models.py:280-282 | The text used for a question is the first matching answer row's text. There is none when the participation has no answer to the question or that text is empty, because empty answers are skipped. |
| Summary.AnswerLines | standup/models.py:279-284 | The entries are exactly the questions with a non-empty answer, each rendered as a heading with its answer. There are never more entries than questions. |
| Summary.AnswerLinesAppend | standup/models.py:279-284 | The entries follow question order: extending the question list extends the entries at the end. |
| Summary.Join | standup/models.py:286 | Joining no items gives the empty string, and joining one item gives that item. A longer join starts with the first item. `JoinAppend` fixes the rest. |
| Summary.JoinAppend | standup/models.py:286 | Joining a longer list appends the separator and the new item to the shorter list's join. |
| Summary.Truncate | standup/models.py:288-289 | Content of at most 1900 characters is kept as is. Longer content becomes its first 1900 characters followed by "...". |
| Summary.TruncateIsIdempotent | standup/models.py:288-289 | Truncating twice is truncating once. |
| Summary.Block | standup/models.py:291 | A participant's message opens with `<@` and closes with the code fence. Right after the id come `>:`, a newline, the fence opening with the `md` tag, and another newline. It is 14 characters longer than the Discord id and the content together. |
| Summary.BlockRecovers | standup/models.py:291 | The mentioned user id and the content can be read back from a participant's message. |
| Summary.NotifyAt | standup/models.py:247-255 | The publish time is the type's due time, truncated to the whole minute, on the standup's date, plus the publish delay. |
| Summary.NotifyAtIgnoresSeconds | standup/models.py:247-255 | Due times that agree to the minute give the same publish time. |
| Summary.ParticipantMessages | standup/models.py:275-293 | Every message is that of a listed participant with answers, and every listed participant with answers has one. There are never more messages than participants. |
| Summary.ParticipantMessagesAppend | standup/models.py:275-293 | Messages follow the list's order: listing one more participant adds their message at the end exactly when they have answers. |
| Summary.Mentions | standup/models.py:296 | There is one mention per listed participant, in list order, naming that participant's Discord id. |
| Summary.Header | standup/models.py:260-262 | The header opens with the type's name and the date text, each on its own starred line. A public type's header adds a newline and then the public URL; a private type's adds nothing. |
| Summary.Messages | standup/models.py:260-298 | The summary opens with the header and has at most two more messages than `active()` has participants. |
| Summary.MessagesCoverAnswered | standup/models.py:260-293 | A published summary opens with the header. It carries the rendered answers of every participant who filled in and has answers. |
| Summary.MessagesNameMissing | standup/models.py:267-298 | When someone has still to fill in, the summary is the header, then the `active()` participants' messages in order, then one line naming everyone in `inactive()`. |
| Summary.MessagesWithoutMissing | standup/models.py:260-298 | When no one has still to fill in, the summary is the header followed by the `active()` participants' messages, in order. |
| Summary.MessagesOnlyFromActive | standup/models.py:267-298 | When no one has still to fill in, every message after the header belongs to a participant of the standup who filled in. |
| Summary.Pin | standup/models.py:300-303 | After publishing, the standup records the pinned header id and clears its rebuild flag. Nothing else changes. |
| Summary.SendSummary | standup/models.py:243-303 | The summary waits exactly while the publish time is ahead and someone has still to fill in. When not waiting, it sends nothing exactly when no one has filled in. Otherwise it sends the summary and pins the header. |
| Summary.PublicationIsMonotone | standup/models.py:257 | Once a summary may be published, it stays publishable, with the same result, at every later instant. |
| Summary.RepublishIsStable | standup/models.py:243-303 | Running the summary again on the store it produced sends the same messages and leaves that store as it is. |
| Form.Digits | standup/forms.py:11 | The numeral of a question id is a non-empty run of decimal digits with no leading zero, as `%d` writes it. |
| Form.ValueOfDigits | standup/forms.py:11 | The decimal numeral of a question id reads back as that id. |
| Form.FieldNameInjective | standup/forms.py:11 | Different question ids give different field names. |
| Form.Fields | standup/forms.py:6-12 | There is one field per question, in order: named after the question id, labelled with the question text, and optional. |
| Form.FieldsAreDistinctAndOptional | standup/forms.py:10-12 | No field is required, and no two fields share a name. |
| Form.AnswersFor | standup/forms.py:15-17 | There is one answer per question, in order, holding the submitted value. |
| Form.CreateAnswers | standup/forms.py:15-17 | Creating answers changes only the answers table. When it completes, the answers are appended in question order. |
| Form.CreateAnswersStops | standup/forms.py:15-17 | A stopped creation stopped at a question that already had an answer. The answers to the questions before it were added. |
| Form.Submit | standup/forms.py:14-22 | A successful save appends the answers and marks the participation completed. It keeps an existing token and flags the standup for rebuilding; nothing else changes. A stopped save changes only the answers. |
| Form.SubmitConflictsIffAnswered | standup/forms.py:14-17 | A save stops exactly when the participation already has an answer to one of its type's questions. |
| Form.SubmitKeepsAnswersUnique | standup/models.py:383-384 | Whether it completes or stops, a save never stores two answers to one question. |
| Form.FindAddedAnswer | standup/forms.py:15-17 | For a question not answered before, the answer found after a save is the one the save added. |
| Form.SubmittedAnswersRender | standup/forms.py:14-17 | After a successful save, each question's rendered text in the summary is the submitted value, or nothing when it was empty. |
| Form.SubmittedIsActive | standup/models.py:327-331 | After a successful save, a participation that is expected to fill in is in `active()` and not in `inactive()`. |

## Left out

- Discord I/O:
  - sending messages and pinning become the returned message list and the store update;
  - the bot process, its commands and `run_bot` are not part of this model.
- Time zones: each user's local date and time are the `clock` parameter.
  - Daylight-saving transitions and `timezone.localtime` are not modelled.
  - The default time zone's instant is the `now` parameter.
- Formatting and URLs:
  - `strftime` of the standup date is the `dateText` parameter;
  - public, form, private and home URLs are the `url` parameter or left out. Site lookup and `reverse` cannot be expressed here.
- Randomness: `get_random_string(48)` is the `drawn` and `mint` parameters. A token is modelled as any 48 letters or digits.
- Servers and channels:
  - the `Server` and `Channel` rows, their slugs and their `get_or_create` calls are left out;
  - an event stores the channel's Discord id directly.
- Users' other fields: the username and time zone fields are not modelled.
- Users: the model keys users by Discord id, so one id names at most one user. In the code `discord_id` is nullable and not unique (standup/models.py:16), and `get_or_create` raises `MultipleObjectsReturned` when two users share an id; neither is modelled.
- Navigation: `previous_standup`, `next_standup`, `previous_participation` and `next_participation` are navigation helpers outside the core.
- Prefill: `prefill_last_answer` is declared (standup/models.py:113) and editable in the admin; no code in standup/models.py, standup/forms.py or standup/views.py reads it.
- Question order: question order is the order of the type's question list.
  - Answer rows are rendered in that order, which is what `order_by('question__order')` gives when every answer's question belongs to the type.
- Ordering.SortByKey: ties between equal first names are broken by an insertion sort. The database promises no order for ties. Database collation is replaced by code-point order.
- Form.CompleteData: the form's own cleaning (stripping whitespace, validating) is left out.
  - Cleaned data is a parameter that holds a value for every field.
- Form.Submit: models the save as the sequence of statements it is, with no transaction.
  - A conflict leaves the answers created before it in place.
  - The database error itself is the `Conflict` outcome.
- Lifecycle.Initiate: does not model a standup row with a null date.
  - It does not model `MultipleObjectsReturned` from `get_or_create`. The uniqueness the model proves rules that out for stores the model builds.
- Lifecycle.Initiate: models one call as one atomic step and assumes calls never overlap. `Standup` (standup/models.py:236-241) and `StandupParticipation` (standup/models.py:334-341) have no unique constraint, and the lookup (standup/models.py:188) and the creation (standup/models.py:206) are separate queries. Two overlapping calls could therefore create two standups for one date or two participations for one user. The uniqueness in `InitiateKeepsUniqueness` holds only for calls that run one after another.
- Lifecycle.Initiate: does not model the `OverflowError` of `aware_dt - timedelta(days=n)` when the minimum gap reaches back before the first representable date (standup/models.py:196). The model subtracts on unbounded integers.
- Lifecycle.Initiate: visits the active attendees in the order of the attendee table. The query at standup/models.py:186 has no ordering, so the database may return another order. With a positive minimum gap, the first eligible attendee visited fixes the standup's date. The `Run*` lemmas in `LifecycleProofs` hold for any order of the attendee list.
- Summary.SendSummary: models one call as one atomic step and assumes no other write overlaps it. In the code it awaits the chat service (standup/models.py:273, 293, 298, 300) before `standup.save()` (standup/models.py:303). A form save that completes a participation meanwhile sets `rebuild_message` (standup/models.py:369-370), and that later save overwrites it with False. The model does not show that lost update.
- Summary.SendSummary: does not model the `AttributeError` raised when the standup's date is null (standup/models.py:248). The model's standup always has a date.
- Events.AddParticipantFromDiscord: assumes at most one attendee row per (event, user) when matching.
  - `AddKeepsAttendeesUnique` shows adding keeps it that way.
  - The `MultipleObjectsReturned` error on a store that breaks this is not modelled.
- Publish to channel: `publish_to_channel` is stored on the type but read by no modelled operation.

=== FILE: events.dfy ===
/**
 * `StandupEventManager`: registering a standup type on a chat channel and
 * adding a chat member to the standup of a channel. Both fetch or create
 * the user rows of the chat members involved before anything else, so
 * those rows are created even when the request itself is refused.
 */
module Events {
  import opened Schedule
  import opened Store

  const NoStandupMessage: string := "No standup available for this channel with this name"
  const AlreadyAttendingMessage: string := "Already in this standup!"

  /** A chat member as the chat service reports it. */
  datatype Member = Member(id: UserKey, displayName: string, discriminator: string)

  /** The answer to a request: whether it was carried out, the reason if not, and the resulting store. */
  datatype Reply = Reply(ok: bool, message: Option<string>, store: Store)

  // ----- Users ------------------------------------------------------------------

  /**
   * `User.objects.get_or_create(discord_id=...)`: the member's row, created
   * from the member's display name and discriminator when missing.
   */
  function EnsureUser(users: map<UserKey, User>, m: Member): (r: map<UserKey, User>)
    ensures m.id in r
    ensures m.id !in users ==> r[m.id] == User(m.id, m.displayName, m.discriminator, None)
    ensures forall k :: k in users ==> k in r && r[k] == users[k]
    ensures forall k :: k in r ==> k in users || k == m.id
  {
    if m.id in users then users else users[m.id := User(m.id, m.displayName, m.discriminator, None)]
  }

  /** Fetching a member a second time changes nothing, whatever names it now reports. */
  lemma EnsureUserIsIdempotent(users: map<UserKey, User>, m: Member, m2: Member)
    requires m2.id == m.id
    ensures EnsureUser(EnsureUser(users, m), m2) == EnsureUser(users, m)
  {
  }

  // ----- Events -----------------------------------------------------------------

  /** Event `ev` is the standup of type `commandName` on channel `channel`. */
  predicate IsEventOf(ev: Event, channel: string, commandName: string)
  {
    ev.channel == channel && ev.kind.commandName == commandName
  }

  predicate HasEvent(events: seq<Event>, channel: string, commandName: string)
  {
    exists i :: 0 <= i < |events| && IsEventOf(events[i], channel, commandName)
  }

  /** `StandupEvent.objects.filter(channel=..., standup_type=...).first()`. */
  function FindEvent(events: seq<Event>, channel: string, commandName: string): (r: Option<nat>)
    ensures r.Some? <==> HasEvent(events, channel, commandName)
    ensures r.Some? ==> r.value < |events| && IsEventOf(events[r.value], channel, commandName)
    ensures r.Some? ==> forall j :: 0 <= j < r.value ==> !IsEventOf(events[j], channel, commandName)
  {
    FindEventFrom(events, channel, commandName, 0)
  }

  function FindEventFrom(events: seq<Event>, channel: string, commandName: string, i: nat): (r: Option<nat>)
    requires i <= |events|
    requires forall j :: 0 <= j < i ==> !IsEventOf(events[j], channel, commandName)
    ensures r.Some? ==> i <= r.value < |events| && IsEventOf(events[r.value], channel, commandName)
    ensures r.Some? ==> forall j :: 0 <= j < r.value ==> !IsEventOf(events[j], channel, commandName)
    ensures r.None? ==> forall j :: 0 <= j < |events| ==> !IsEventOf(events[j], channel, commandName)
    decreases |events| - i
  {
    if i == |events| then None
    else if IsEventOf(events[i], channel, commandName) then Some(i)
    else FindEventFrom(events, channel, commandName, i + 1)
  }

  /** No channel has two events of one type. */
  predicate EventsUnique(events: seq<Event>)
  {
    forall i, j :: 0 <= i < j < |events| ==>
      !IsEventOf(events[j], events[i].channel, events[i].kind.commandName)
  }

  /**
   * `create_from_discord`: registers the standup type on the channel unless
   * it is registered there already.
   */
  function CreateFromDiscord(s: Store, kind: StandupType, channel: string, creator: Member): (r: Reply)
    ensures r.ok <==> !HasEvent(s.events, channel, kind.commandName)
    ensures r.message.None?
    ensures r.ok ==> r.store.events == s.events + [Event(channel, kind, creator.id)]
    ensures !r.ok ==> r.store.events == s.events
    ensures r.store.users == EnsureUser(s.users, creator)
    ensures r.store.attendees == s.attendees && r.store.standups == s.standups
    ensures r.store.participations == s.participations && r.store.answers == s.answers
  {
    var t := s.(users := EnsureUser(s.users, creator));
    if HasEvent(s.events, channel, kind.commandName) then Reply(false, None, t)
    else Reply(true, None, t.(events := s.events + [Event(channel, kind, creator.id)]))
  }

  /** Registering keeps channels free of duplicate events. */
  lemma CreateKeepsEventsUnique(s: Store, kind: StandupType, channel: string, creator: Member)
    requires EventsUnique(s.events)
    ensures EventsUnique(CreateFromDiscord(s, kind, channel, creator).store.events)
  {
    var r := CreateFromDiscord(s, kind, channel, creator);
    if r.ok {
      var evs := r.store.events;
      forall i, j | 0 <= i < j < |evs|
        ensures !IsEventOf(evs[j], evs[i].channel, evs[i].kind.commandName)
      {
        if j == |s.events| {
          assert evs[i] == s.events[i];
        } else {
          assert evs[i] == s.events[i] && evs[j] == s.events[j];
        }
      }
    }
  }

  /**
   * Registering the same type on the same channel again is refused and adds
   * nothing, whoever asks; asked by the same member it changes nothing at all.
   */
  lemma CreateTwiceIsRefused(s: Store, kind: StandupType, kind2: StandupType, channel: string, creator: Member, creator2: Member)
    requires kind2.commandName == kind.commandName
    ensures var t := CreateFromDiscord(s, kind, channel, creator).store;
      var r := CreateFromDiscord(t, kind2, channel, creator2);
      && !r.ok
      && r.store.events == t.events
      && (creator2.id == creator.id ==> r.store == t)
  {
    var first := CreateFromDiscord(s, kind, channel, creator);
    var t := first.store;
    if first.ok {
      assert IsEventOf(t.events[|s.events|], channel, kind2.commandName);
    } else {
      var i :| 0 <= i < |s.events| && IsEventOf(s.events[i], channel, kind.commandName);
      assert IsEventOf(t.events[i], channel, kind2.commandName);
    }
  }

  // ----- Attendees --------------------------------------------------------------

  /** User `u` attends event `e` (in any state). */
  predicate Attending(attendees: seq<Attendee>, e: nat, u: UserKey)
  {
    exists i :: 0 <= i < |attendees| && attendees[i].event == e && attendees[i].user == u
  }

  /** No user attends one event twice. */
  predicate AttendeesUnique(attendees: seq<Attendee>)
  {
    forall i, j :: 0 <= i < j < |attendees| ==>
      !(attendees[i].event == attendees[j].event && attendees[i].user == attendees[j].user)
  }

  /** Every attendee's event row exists (the foreign key of `Attendee.standup`). */
  predicate AttendeeEventsKnown(s: Store)
  {
    forall i :: 0 <= i < |s.attendees| ==> s.attendees[i].event < |s.events|
  }

  /**
   * `add_participant_from_discord`: adds `member` to the first event of the
   * type on the channel, as an active attendee, unless there is no such
   * event or the member attends it already.
   */
  function AddParticipantFromDiscord(s: Store, kind: StandupType, channel: string, member: Member, creator: Member, readOnly: bool): (r: Reply)
    ensures r.ok <==> r.message.None?
    ensures !HasEvent(s.events, channel, kind.commandName) ==> !r.ok && r.message == Some(NoStandupMessage)
    ensures HasEvent(s.events, channel, kind.commandName) ==>
      var e := FindEvent(s.events, channel, kind.commandName).value;
      && (r.ok <==> !Attending(s.attendees, e, member.id))
      && (!r.ok ==> r.message == Some(AlreadyAttendingMessage))
      && (r.ok ==> r.store.attendees == s.attendees + [Attendee(e, member.id, true, readOnly, creator.id)])
    ensures !r.ok ==> r.store.attendees == s.attendees
    ensures r.store.users == EnsureUser(EnsureUser(s.users, member), creator)
    ensures r.store.events == s.events && r.store.standups == s.standups
    ensures r.store.participations == s.participations && r.store.answers == s.answers
  {
    var t := s.(users := EnsureUser(EnsureUser(s.users, member), creator));
    var found := FindEvent(s.events, channel, kind.commandName);
    if found.None? then Reply(false, Some(NoStandupMessage), t)
    else if Attending(s.attendees, found.value, member.id) then Reply(false, Some(AlreadyAttendingMessage), t)
    else Reply(true, None, t.(attendees := s.attendees + [Attendee(found.value, member.id, true, readOnly, creator.id)]))
  }

  /** Adding keeps every user attending each event at most once. */
  lemma AddKeepsAttendeesUnique(s: Store, kind: StandupType, channel: string, member: Member, creator: Member, readOnly: bool)
    requires AttendeesUnique(s.attendees)
    ensures AttendeesUnique(AddParticipantFromDiscord(s, kind, channel, member, creator, readOnly).store.attendees)
  {
    var r := AddParticipantFromDiscord(s, kind, channel, member, creator, readOnly);
    if r.ok {
      var atts := r.store.attendees;
      forall i, j | 0 <= i < j < |atts|
        ensures !(atts[i].event == atts[j].event && atts[i].user == atts[j].user)
      {
        if j == |s.attendees| {
          assert atts[i] == s.attendees[i];
        } else {
          assert atts[i] == s.attendees[i] && atts[j] == s.attendees[j];
        }
      }
    }
  }

  /** Adding keeps every attendee's user and event rows in place. */
  lemma AddKeepsRowsKnown(s: Store, kind: StandupType, channel: string, member: Member, creator: Member, readOnly: bool)
    requires AttendeeUsersKnown(s) && AttendeeEventsKnown(s)
    ensures var t := AddParticipantFromDiscord(s, kind, channel, member, creator, readOnly).store;
      AttendeeUsersKnown(t) && AttendeeEventsKnown(t)
  {
    var t := AddParticipantFromDiscord(s, kind, channel, member, creator, readOnly).store;
    forall i | 0 <= i < |t.attendees|
      ensures t.attendees[i].user in t.users && t.attendees[i].event < |t.events|
    {
      if i < |s.attendees| {
        assert t.attendees[i] == s.attendees[i];
      }
    }
  }

  /**
   * Adding a member a second time is refused with the already-attending
   * message and adds no attendee.
   */
  lemma AddTwiceIsRefused(s: Store, kind: StandupType, channel: string, member: Member, creator: Member, creator2: Member, readOnly: bool, readOnly2: bool)
    requires HasEvent(s.events, channel, kind.commandName)
    ensures var t := AddParticipantFromDiscord(s, kind, channel, member, creator, readOnly).store;
      var r := AddParticipantFromDiscord(t, kind, channel, member, creator2, readOnly2);
      && !r.ok
      && r.message == Some(AlreadyAttendingMessage)
      && r.store.attendees == t.attendees
  {
    var first := AddParticipantFromDiscord(s, kind, channel, member, creator, readOnly);
    var t := first.store;
    var e := FindEvent(s.events, channel, kind.commandName).value;
    if first.ok {
      assert t.attendees[|s.attendees|].event == e && t.attendees[|s.attendees|].user == member.id;
    } else {
      var i :| 0 <= i < |s.attendees| && s.attendees[i].event == e && s.attendees[i].user == member.id;
      assert t.attendees[i] == s.attendees[i];
    }
  }

  /** A member can always be added to a standup just registered on the channel. */
  lemma CreateThenAddSucceeds(s: Store, kind: StandupType, channel: string, creator: Member, member: Member, adder: Member, readOnly: bool)
    requires AttendeeEventsKnown(s)
    requires CreateFromDiscord(s, kind, channel, creator).ok
    ensures var t := CreateFromDiscord(s, kind, channel, creator).store;
      var r := AddParticipantFromDiscord(t, kind, channel, member, adder, readOnly);
      && r.ok
      && r.store.attendees == t.attendees + [Attendee(|s.events|, member.id, true, readOnly, adder.id)]
  {
    var t := CreateFromDiscord(s, kind, channel, creator).store;
    var n := |s.events|;
    forall j | 0 <= j < n
      ensures !IsEventOf(t.events[j], channel, kind.commandName)
    {
      assert t.events[j] == s.events[j];
    }
    assert IsEventOf(t.events[n], channel, kind.commandName);
    assert FindEvent(t.events, channel, kind.commandName) == Some(n);
    assert !Attending(t.attendees, n, member.id);
  }
}

=== FILE: form.dfy ===
/**
 * `StandupForm`: the answer form of one participation, one optional text
 * field per question of its standup type, and its submission, which stores
 * one answer per question and completes the participation.
 */
module Form {
  import opened Schedule
  import opened Store
  import opened Summary

  // ----- Field names --------------------------------------------------------

  const FieldPrefix: string := "question_"

  predicate IsDigit(c: char)
  {
    '0' <= c <= '9'
  }

  function DigitChar(d: nat): (c: char)
    requires d < 10
    ensures IsDigit(c) && c as int - '0' as int == d
  {
    ('0' as int + d) as char
  }

  /** The decimal numeral of `n`, as `'%d' % n` writes it. */
  function Digits(n: nat): (r: string)
    ensures |r| >= 1 && forall c :: c in r ==> IsDigit(c)
    ensures |r| > 1 ==> r[0] != '0'
    decreases n
  {
    if n < 10 then [DigitChar(n)] else Digits(n / 10) + [DigitChar(n % 10)]
  }

  /** The value of a numeral. */
  function ValueOf(s: string): nat
    requires forall c :: c in s ==> IsDigit(c)
    decreases |s|
  {
    if |s| == 0 then 0
    else
      var last := s[|s| - 1];
      assert last in s && IsDigit(last);
      assert forall c :: c in s[..|s| - 1] ==> c in s;
      ValueOf(s[..|s| - 1]) * 10 + (last as int - '0' as int)
  }

  /** Reading back the numeral of `n` gives `n`. */
  lemma {:induction false} ValueOfDigits(n: nat)
    ensures ValueOf(Digits(n)) == n
    decreases n
  {
    var d := Digits(n);
    if n >= 10 {
      ValueOfDigits(n / 10);
      assert d[..|d| - 1] == Digits(n / 10);
    }
  }

  /** The form field of question `qid`, `'question_%d' % qid`. */
  function FieldName(qid: nat): string
  {
    FieldPrefix + Digits(qid)
  }

  /** Different questions get different fields. */
  lemma FieldNameInjective(a: nat, b: nat)
    requires FieldName(a) == FieldName(b)
    ensures a == b
  {
    assert FieldName(a)[|FieldPrefix|..] == Digits(a);
    assert FieldName(b)[|FieldPrefix|..] == Digits(b);
    ValueOfDigits(a);
    ValueOfDigits(b);
  }

  // ----- The form -------------------------------------------------------------

  /** A text field: its name, its prompt and whether it must be filled in. */
  datatype Field = Field(name: string, prompt: string, required: bool)

  /** No two questions share an id (they are rows of one table). */
  predicate DistinctIds(qs: seq<Question>)
  {
    forall i, j :: 0 <= i < j < |qs| ==> qs[i].id != qs[j].id
  }

  /** `StandupForm.__init__`: one optional field per question, labelled with the question. */
  function Fields(qs: seq<Question>): (r: seq<Field>)
    ensures |r| == |qs|
    ensures forall i :: 0 <= i < |qs| ==> r[i] == Field(FieldName(qs[i].id), qs[i].text, false)
  {
    if |qs| == 0 then [] else [Field(FieldName(qs[0].id), qs[0].text, false)] + Fields(qs[1..])
  }

  /** Every field of a form is optional, and distinct questions give distinct field names. */
  lemma FieldsAreDistinctAndOptional(qs: seq<Question>)
    requires DistinctIds(qs)
    ensures var fs := Fields(qs);
      && (forall i :: 0 <= i < |fs| ==> !fs[i].required)
      && (forall i, j :: 0 <= i < j < |fs| ==> fs[i].name != fs[j].name)
  {
    var fs := Fields(qs);
    forall i, j | 0 <= i < j < |fs|
      ensures fs[i].name != fs[j].name
    {
      if fs[i].name == fs[j].name {
        FieldNameInjective(qs[i].id, qs[j].id);
      }
    }
  }

  // ----- Submission -----------------------------------------------------------

  /** The questions of the standup type participation `pid` answers. */
  function QuestionsOf(s: Store, pid: nat): seq<Question>
    requires LinkedParticipation(s, pid)
  {
    s.events[s.standups[s.participations[pid].standup].event].kind.questions
  }

  /** Participation `pid` exists and its standup and event rows exist. */
  predicate LinkedParticipation(s: Store, pid: nat)
  {
    pid < |s.participations| && s.participations[pid].standup < |s.standups|
    && s.standups[s.participations[pid].standup].event < |s.events|
  }

  /** The cleaned form data holds a value for every field. */
  predicate CompleteData(qs: seq<Question>, cleaned: map<string, string>)
  {
    forall q :: q in qs ==> FieldName(q.id) in cleaned
  }

  /**
   * How a submission ends: stored, or stopped by the answers table's
   * uniqueness when question `question` already has an answer; the answers
   * created before that point stay stored.
   */
  datatype Submission =
    | Submitted(store: Store)
    | Conflict(question: nat, store: Store)

  /** The value submitted for question `qid`; a field missing from the data cleans to the empty text. */
  function FieldValue(cleaned: map<string, string>, qid: nat): string
  {
    if FieldName(qid) in cleaned then cleaned[FieldName(qid)] else ""
  }

  /** The answers a submission creates, one per question in order. */
  function AnswersFor(pid: nat, qs: seq<Question>, cleaned: map<string, string>): (r: seq<Answer>)
    ensures |r| == |qs|
    ensures forall i :: 0 <= i < |qs| ==> r[i] == Answer(pid, qs[i].id, FieldValue(cleaned, qs[i].id))
  {
    if |qs| == 0 then [] else [Answer(pid, qs[0].id, FieldValue(cleaned, qs[0].id))] + AnswersFor(pid, qs[1..], cleaned)
  }

  /** `t` is `s` with other answers. */
  predicate OnlyAnswersDiffer(s: Store, t: Store)
  {
    t == s.(answers := t.answers)
  }

  /**
   * Creation stopped at question `qid` of `qs`: the answers before it were
   * added and `qid` already has an answer.
   */
  predicate StoppedAt(before: seq<Answer>, pid: nat, qs: seq<Question>, cleaned: map<string, string>, qid: nat, after: seq<Answer>)
  {
    exists i :: 0 <= i < |qs| && qs[i].id == qid
      && after == before + AnswersFor(pid, qs[..i], cleaned)
      && HasAnswer(after, pid, qid)
  }

  /** Creates the answers of `pid` to `qs` one by one; a question already answered stops it. */
  function CreateAnswers(s: Store, pid: nat, qs: seq<Question>, cleaned: map<string, string>): (r: Submission)
    ensures OnlyAnswersDiffer(s, r.store)
    ensures r.Submitted? ==> r.store.answers == s.answers + AnswersFor(pid, qs, cleaned)
    decreases |qs|
  {
    if |qs| == 0 then Submitted(s)
    else if HasAnswer(s.answers, pid, qs[0].id) then Conflict(qs[0].id, s)
    else
      var a := Answer(pid, qs[0].id, FieldValue(cleaned, qs[0].id));
      var s1 := s.(answers := s.answers + [a]);
      var r := CreateAnswers(s1, pid, qs[1..], cleaned);
      AnswersForAfterFirst(s.answers, pid, qs, cleaned);
      assert r.store == s.(answers := r.store.answers);
      r
  }

  /** Adding the first question's answer and then the rest's adds the answers to all of `qs`. */
  lemma AnswersForAfterFirst(before: seq<Answer>, pid: nat, qs: seq<Question>, cleaned: map<string, string>)
    requires |qs| > 0
    ensures (before + [Answer(pid, qs[0].id, FieldValue(cleaned, qs[0].id))]) + AnswersFor(pid, qs[1..], cleaned)
      == before + AnswersFor(pid, qs, cleaned)
  {
    var a := Answer(pid, qs[0].id, FieldValue(cleaned, qs[0].id));
    var rest := AnswersFor(pid, qs[1..], cleaned);
    assert AnswersFor(pid, qs, cleaned) == [a] + rest;
    assert (before + [a]) + rest == before + ([a] + rest);
  }

  /** The answers for a prefix of `qs` one longer than a prefix of `qs[1..]`. */
  lemma AnswersForLongerPrefix(before: seq<Answer>, pid: nat, qs: seq<Question>, cleaned: map<string, string>, i: nat)
    requires i + 1 < |qs|
    ensures var a := Answer(pid, qs[0].id, FieldValue(cleaned, qs[0].id));
      (before + [a]) + AnswersFor(pid, qs[1..][..i], cleaned) == before + AnswersFor(pid, qs[..i + 1], cleaned)
  {
    var head := qs[..i + 1];
    assert head[0] == qs[0] && head[1..] == qs[1..][..i];
    AnswersForAfterFirst(before, pid, head, cleaned);
  }

  /**
   * A stopped creation stopped at a question of the list that already had
   * an answer, after adding the answers to the questions before it.
   */
  lemma {:induction false} CreateAnswersStops(s: Store, pid: nat, qs: seq<Question>, cleaned: map<string, string>)
    ensures var r := CreateAnswers(s, pid, qs, cleaned);
      r.Conflict? ==> StoppedAt(s.answers, pid, qs, cleaned, r.question, r.store.answers)
    decreases |qs|
  {
    var r := CreateAnswers(s, pid, qs, cleaned);
    if |qs| > 0 && r.Conflict? {
      if HasAnswer(s.answers, pid, qs[0].id) {
        assert AnswersFor(pid, qs[..0], cleaned) == [];
        assert r.store.answers == s.answers + AnswersFor(pid, qs[..0], cleaned);
      } else {
        var a := Answer(pid, qs[0].id, FieldValue(cleaned, qs[0].id));
        var s1 := s.(answers := s.answers + [a]);
        assert r == CreateAnswers(s1, pid, qs[1..], cleaned);
        CreateAnswersStops(s1, pid, qs[1..], cleaned);
        var i :| 0 <= i < |qs[1..]| && qs[1..][i].id == r.question
          && r.store.answers == s1.answers + AnswersFor(pid, qs[1..][..i], cleaned)
          && HasAnswer(r.store.answers, pid, r.question);
        AnswersForLongerPrefix(s.answers, pid, qs, cleaned, i);
        var k := i + 1;
        assert 0 <= k < |qs| && qs[k].id == r.question && r.store.answers == s.answers + AnswersFor(pid, qs[..k], cleaned);
      }
    }
  }

  /**
   * `StandupForm.save` on a participation the form view admitted (one not
   * completed yet): stores the answers, then marks the participation
   * completed, which flags its standup's summary for rebuilding.
   */
  function Submit(s: Store, pid: nat, cleaned: map<string, string>, drawn: Token): (r: Submission)
    requires LinkedParticipation(s, pid) && !s.participations[pid].completed
    requires CompleteData(QuestionsOf(s, pid), cleaned)
    ensures r.Submitted? ==>
      var k := s.participations[pid].standup;
      && r.store.answers == s.answers + AnswersFor(pid, QuestionsOf(s, pid), cleaned)
      && |r.store.participations| == |s.participations|
      && r.store.participations[pid] == s.participations[pid].(completed := true, token := r.store.participations[pid].token)
      && (s.participations[pid].token != "" ==> r.store.participations[pid].token == s.participations[pid].token)
      && (forall j :: 0 <= j < |s.participations| && j != pid ==> r.store.participations[j] == s.participations[j])
      && |r.store.standups| == |s.standups|
      && r.store.standups[k] == s.standups[k].(rebuild := true)
      && (forall j :: 0 <= j < |s.standups| && j != k ==> r.store.standups[j] == s.standups[j])
      && r.store.users == s.users && r.store.events == s.events && r.store.attendees == s.attendees
    ensures r.Conflict? ==> OnlyAnswersDiffer(s, r.store)
  {
    var created := CreateAnswers(s, pid, QuestionsOf(s, pid), cleaned);
    if created.Conflict? then created
    else
      var t := created.store;
      Submitted(SaveParticipation(t, pid, t.participations[pid].(completed := true), drawn))
  }

  /** Appending an answer to another question does not change whether `qid` is answered. */
  lemma OtherAnswerKeepsHas(answers: seq<Answer>, a: Answer, pid: nat, qid: nat)
    requires a.question != qid
    ensures HasAnswer(answers + [a], pid, qid) <==> HasAnswer(answers, pid, qid)
  {
    var t := answers + [a];
    if HasAnswer(t, pid, qid) {
      var m :| 0 <= m < |t| && t[m].participation == pid && t[m].question == qid;
      assert m < |answers|;
    }
    if HasAnswer(answers, pid, qid) {
      var m :| 0 <= m < |answers| && answers[m].participation == pid && answers[m].question == qid;
      assert t[m] == answers[m];
    }
  }

  /** Answers are created in question order, so a conflict is the first already answered question. */
  lemma {:induction false} CreateAnswersConflictsIffAnswered(s: Store, pid: nat, qs: seq<Question>, cleaned: map<string, string>)
    requires DistinctIds(qs)
    ensures CreateAnswers(s, pid, qs, cleaned).Conflict? <==> exists q :: q in qs && HasAnswer(s.answers, pid, q.id)
    decreases |qs|
  {
    if |qs| > 0 && !HasAnswer(s.answers, pid, qs[0].id) {
      var a := Answer(pid, qs[0].id, FieldValue(cleaned, qs[0].id));
      var s1 := s.(answers := s.answers + [a]);
      assert DistinctIds(qs[1..]);
      CreateAnswersConflictsIffAnswered(s1, pid, qs[1..], cleaned);
      forall q | q in qs[1..]
        ensures HasAnswer(s1.answers, pid, q.id) <==> HasAnswer(s.answers, pid, q.id)
      {
        var j :| 0 <= j < |qs[1..]| && qs[1..][j] == q;
        assert q.id != qs[0].id;
        OtherAnswerKeepsHas(s.answers, a, pid, q.id);
      }
      assert forall q :: q in qs <==> q == qs[0] || q in qs[1..];
    }
  }

  /**
   * A submission fails exactly when the participation already has an answer
   * to one of its type's questions.
   */
  lemma SubmitConflictsIffAnswered(s: Store, pid: nat, cleaned: map<string, string>, drawn: Token)
    requires LinkedParticipation(s, pid) && !s.participations[pid].completed
    requires CompleteData(QuestionsOf(s, pid), cleaned) && DistinctIds(QuestionsOf(s, pid))
    ensures Submit(s, pid, cleaned, drawn).Conflict? <==>
      exists q :: q in QuestionsOf(s, pid) && HasAnswer(s.answers, pid, q.id)
  {
    CreateAnswersConflictsIffAnswered(s, pid, QuestionsOf(s, pid), cleaned);
  }

  /** Appending one answer to a question `pid` has not answered keeps the answers unique. */
  lemma AppendKeepsUnique(answers: seq<Answer>, a: Answer)
    requires AnswersUnique(answers) && !HasAnswer(answers, a.participation, a.question)
    ensures AnswersUnique(answers + [a])
  {
    var t := answers + [a];
    forall i, j | 0 <= i < j < |t|
      ensures !(t[i].participation == t[j].participation && t[i].question == t[j].question)
    {
      if j == |answers| {
        assert t[i] == answers[i];
      } else {
        assert t[i] == answers[i] && t[j] == answers[j];
      }
    }
  }

  lemma {:induction false} CreateAnswersKeepsUnique(s: Store, pid: nat, qs: seq<Question>, cleaned: map<string, string>)
    requires AnswersUnique(s.answers)
    ensures AnswersUnique(CreateAnswers(s, pid, qs, cleaned).store.answers)
    decreases |qs|
  {
    if |qs| > 0 && !HasAnswer(s.answers, pid, qs[0].id) {
      var a := Answer(pid, qs[0].id, FieldValue(cleaned, qs[0].id));
      AppendKeepsUnique(s.answers, a);
      CreateAnswersKeepsUnique(s.(answers := s.answers + [a]), pid, qs[1..], cleaned);
    }
  }

  /** Submitting, whether it succeeds or stops, never stores two answers to one question. */
  lemma SubmitKeepsAnswersUnique(s: Store, pid: nat, cleaned: map<string, string>, drawn: Token)
    requires LinkedParticipation(s, pid) && !s.participations[pid].completed
    requires CompleteData(QuestionsOf(s, pid), cleaned) && AnswersUnique(s.answers)
    ensures AnswersUnique(Submit(s, pid, cleaned, drawn).store.answers)
  {
    CreateAnswersKeepsUnique(s, pid, QuestionsOf(s, pid), cleaned);
  }

  /**
   * In a table extended by a submission's answers, the answer found for a
   * question not answered before is the one the submission added.
   */
  lemma FindAddedAnswer(before: seq<Answer>, pid: nat, qs: seq<Question>, cleaned: map<string, string>, i: nat)
    requires DistinctIds(qs) && i < |qs| && !HasAnswer(before, pid, qs[i].id)
    ensures FindAnswer(before + AnswersFor(pid, qs, cleaned), pid, qs[i].id) == Some(|before| + i)
  {
    FindAnswerInAdded(pid, qs, cleaned, i);
    FindAnswerAfter(before, AnswersFor(pid, qs, cleaned), pid, qs[i].id, i);
  }

  /** With distinct question ids, question `i`'s answer is found at row `i` of a submission's answers. */
  lemma FindAnswerInAdded(pid: nat, qs: seq<Question>, cleaned: map<string, string>, i: nat)
    requires DistinctIds(qs) && i < |qs|
    ensures FindAnswer(AnswersFor(pid, qs, cleaned), pid, qs[i].id) == Some(i)
  {
    var added := AnswersFor(pid, qs, cleaned);
    forall j | 0 <= j < i
      ensures !(added[j].participation == pid && added[j].question == qs[i].id)
    {
      assert added[j].question == qs[j].id;
    }
    FirstMatchIsFound(added, pid, qs[i].id, i);
  }

  /** Behind a table with no matching row, the match found in the rows appended is found, shifted by the table's length. */
  lemma FindAnswerAfter(before: seq<Answer>, added: seq<Answer>, pid: nat, qid: nat, x: nat)
    requires !HasAnswer(before, pid, qid) && FindAnswer(added, pid, qid) == Some(x)
    ensures FindAnswer(before + added, pid, qid) == Some(|before| + x)
  {
    var answers := before + added;
    forall j | 0 <= j < |before| + x
      ensures !(answers[j].participation == pid && answers[j].question == qid)
    {
      if j < |before| {
        assert answers[j] == before[j];
      } else {
        assert answers[j] == added[j - |before|];
      }
    }
    assert answers[|before| + x] == added[x];
    FirstMatchIsFound(answers, pid, qid, |before| + x);
  }

  /**
   * What was submitted is what the summary shows: after a successful
   * submission each question's rendered text is the submitted value, or
   * nothing when the value was empty.
   */
  lemma SubmittedAnswersRender(s: Store, pid: nat, cleaned: map<string, string>, drawn: Token, i: nat)
    requires LinkedParticipation(s, pid) && !s.participations[pid].completed
    requires CompleteData(QuestionsOf(s, pid), cleaned) && DistinctIds(QuestionsOf(s, pid))
    requires Submit(s, pid, cleaned, drawn).Submitted?
    requires i < |QuestionsOf(s, pid)|
    ensures var q := QuestionsOf(s, pid)[i];
      var answers := Submit(s, pid, cleaned, drawn).store.answers;
      FilledText(answers, pid, q.id) == if cleaned[FieldName(q.id)] == "" then None else Some(cleaned[FieldName(q.id)])
  {
    var qs := QuestionsOf(s, pid);
    SubmitConflictsIffAnswered(s, pid, cleaned, drawn);
    assert qs[i] in qs;
    FindAddedAnswer(s.answers, pid, qs, cleaned, i);
  }

  /** A submitted participation that is expected to fill in is listed as having filled in. */
  lemma SubmittedIsActive(s: Store, pid: nat, cleaned: map<string, string>, drawn: Token)
    requires LinkedParticipation(s, pid) && !s.participations[pid].completed
    requires CompleteData(QuestionsOf(s, pid), cleaned) && ParticipantUsersKnown(s)
    requires !s.participations[pid].readOnly
    requires Submit(s, pid, cleaned, drawn).Submitted?
    ensures var t := Submit(s, pid, cleaned, drawn).store;
      ParticipantUsersKnown(t)
      && pid in Active(t.participations, t.users, s.participations[pid].standup)
      && pid !in Inactive(t.participations, t.users, s.participations[pid].standup)
  {
  }
}

=== FILE: lifecycle.dfy ===
/**
 * The poll-driven lifecycle step `StandupEvent.initiate`: for every active
 * attendee of one event it may create today's standup, enrol the attendee
 * and mark the enrolment notified once the attendee's local time is past
 * the type's due time. The store goes in and comes out; the participations
 * that became due are returned for the caller to message.
 */
module Lifecycle {
  import opened Schedule
  import opened Store

  /** The store after visiting some attendees, and the participations that became due. */
  datatype Sweep = Sweep(store: Store, due: seq<nat>)

  /** What `initiate` returns: a success flag, the due participations and the new store. */
  datatype Tick = Tick(ok: bool, due: seq<nat>, store: Store)

  /** Participation `i` is notified in `t` but was unnotified or absent in `s`. */
  ghost predicate NewlyNotified(s: Store, t: Store, i: int)
  {
    0 <= i < |t.participations| && t.participations[i].notified
    && (i >= |s.participations| || !s.participations[i].notified)
  }

  /**
   * Participation `i` of `t` is notified, belongs to the standup of event
   * `e` dated on its user's local date, and its user's local time is
   * strictly past the type's due time.
   */
  ghost predicate DueFor(t: Store, e: nat, clock: UserKey -> LocalTime, i: nat)
    requires e < |t.events|
  {
    && i < |t.participations|
    && t.participations[i].notified
    && t.participations[i].standup < |t.standups|
    && t.standups[t.participations[i].standup].event == e
    && t.standups[t.participations[i].standup].date == clock(t.participations[i].user).date
    && clock(t.participations[i].user).time > t.events[e].kind.createAt
  }

  /** The attendee's local day is a scheduled weekday and the user is not muted through it. */
  predicate Eligible(s: Store, e: nat, a: Attendee, clock: UserKey -> LocalTime)
    requires e < |s.events| && a.user in s.users
  {
    var now := clock(a.user);
    InTimeslot(s.events[e].kind, now) && !Muted(s.users[a.user], now.date)
  }

  /** The minimum-gap rule forbids a new standup of `e` dated `d`. */
  predicate GapBlocks(s: Store, e: nat, d: Date)
    requires e < |s.events|
  {
    var n := s.events[e].kind.minimumDays;
    n > 0 && AnyStandupFrom(s, e, d - n)
  }

  /** The active attendees of event `e`, in table order. */
  function ActiveAttendees(s: Store, e: nat): (r: seq<Attendee>)
    ensures forall a :: a in r <==> a in s.attendees && a.event == e && a.active
  {
    ActiveAmong(s.attendees, e)
  }

  function ActiveAmong(atts: seq<Attendee>, e: nat): (r: seq<Attendee>)
    ensures forall a :: a in r <==> a in atts && a.event == e && a.active
  {
    if |atts| == 0 then []
    else
      var rest := ActiveAmong(atts[1..], e);
      assert forall a :: a in atts <==> a == atts[0] || a in atts[1..];
      if atts[0].event == e && atts[0].active then [atts[0]] + rest else rest
  }

  /**
   * Enrols attendee `a` in standup `k` (already known to be today's standup
   * of `e` for `a`): nothing happens if the user already has a notified
   * participation; otherwise the participation is fetched or created with
   * the attendee's read-only flag, and it is notified when the user's local
   * time is past the due time.
   */
  function Enroll(s: Store, e: nat, k: nat, a: Attendee, clock: UserKey -> LocalTime, mint: nat -> Token): (r: Sweep)
    requires e < |s.events| && k < |s.standups|
    requires s.standups[k].event == e && s.standups[k].date == clock(a.user).date
    ensures Grows(s, r.store)
    ensures |r.store.standups| == |s.standups|
    ensures forall i :: NewlyNotified(s, r.store, i) <==> i in r.due
    ensures |r.due| <= 1
    ensures forall i :: i in r.due ==> DueFor(r.store, e, clock, i)
    ensures FindParticipation(r.store, k, a.user).Some?
    ensures clock(a.user).time > s.events[e].kind.createAt ==> AnyNotified(r.store, k, a.user)
    ensures |r.store.participations| <= |s.participations| + 1
    ensures |r.store.participations| > |s.participations| ==> FindParticipation(s, k, a.user).None?
    ensures forall i :: |s.participations| <= i < |r.store.participations| ==>
      var p := r.store.participations[i];
      p.standup == k && p.user == a.user && p.readOnly == a.readOnly && IsToken(p.token) && !p.completed
  {
    var now := clock(a.user);
    if AnyNotified(s, k, a.user) then Sweep(s, [])
    else
      var s2 := GetOrCreate(s, k, a, mint);
      var i := FindParticipation(s2, k, a.user).value;
      var p := s2.participations[i];
      if now.time > s.events[e].kind.createAt && !p.notified then
        var s3 := MarkNotified(s2, i, mint(i));
        NotifyingEnroll(s, e, k, a, clock, mint, s2, i, s3);
        Sweep(s3, [i])
      else
        Sweep(s2, [])
  }

  /** Enrolment that notifies the fetched or created participation `i`. */
  lemma NotifyingEnroll(s: Store, e: nat, k: nat, a: Attendee, clock: UserKey -> LocalTime, mint: nat -> Token,
                        s2: Store, i: nat, s3: Store)
    requires e < |s.events| && k < |s.standups|
    requires s.standups[k].event == e && s.standups[k].date == clock(a.user).date
    requires !AnyNotified(s, k, a.user) && clock(a.user).time > s.events[e].kind.createAt
    requires s2 == GetOrCreate(s, k, a, mint)
    requires FindParticipation(s2, k, a.user) == Some(i) && !s2.participations[i].notified
    requires s3 == MarkNotified(s2, i, mint(i))
    ensures Grows(s, s3)
    ensures |s3.standups| == |s.standups|
    ensures forall j :: NewlyNotified(s, s3, j) <==> j in [i]
    ensures DueFor(s3, e, clock, i)
    ensures FindParticipation(s3, k, a.user).Some?
    ensures AnyNotified(s3, k, a.user)
    ensures |s3.participations| <= |s.participations| + 1
    ensures |s3.participations| > |s.participations| ==> FindParticipation(s, k, a.user).None?
    ensures forall j :: |s.participations| <= j < |s3.participations| ==>
      var p := s3.participations[j];
      p.standup == k && p.user == a.user && p.readOnly == a.readOnly && IsToken(p.token) && !p.completed
  {
    GrowsTransitive(s, s2, s3);
    assert forall j :: NewlyNotified(s, s3, j) <==> NewlyNotified(s2, s3, j);
  }

  /**
   * `p.notified = True; p.save()` on participation `i`: the row becomes
   * notified, gaining a token if it had none, and it is the only row newly
   * notified. The save flags its standup for a rebuild only when the row is
   * already completed; no other standup changes.
   */
  function MarkNotified(s: Store, i: nat, drawn: Token): (r: Store)
    requires i < |s.participations| && s.participations[i].standup < |s.standups|
    ensures Grows(s, r) && |r.participations| == |s.participations|
    ensures r.participations[i] == s.participations[i].(notified := true, token := r.participations[i].token)
    ensures s.participations[i].token != "" ==> r.participations[i].token == s.participations[i].token
    ensures forall j :: 0 <= j < |s.participations| && j != i ==> r.participations[j] == s.participations[j]
    ensures forall k :: 0 <= k < |s.standups| ==>
      r.standups[k].event == s.standups[k].event && r.standups[k].date == s.standups[k].date
    ensures forall k :: 0 <= k < |s.standups| ==>
      r.standups[k] == s.standups[k].(rebuild := s.standups[k].rebuild || (k == s.participations[i].standup && s.participations[i].completed))
    ensures forall j :: NewlyNotified(s, r, j) <==> j == i && !s.participations[i].notified
  {
    SaveParticipation(s, i, s.participations[i].(notified := true), drawn)
  }

  /**
   * `get_or_create` of the participation of `a`'s user in standup `k`: the
   * first such row when there is one, otherwise a new unnotified row with
   * the attendee's read-only flag and a freshly drawn token.
   */
  function GetOrCreate(s: Store, k: nat, a: Attendee, mint: nat -> Token): (r: Store)
    requires k < |s.standups|
    ensures Grows(s, r) && r.standups == s.standups
    ensures FindParticipation(s, k, a.user).Some? ==> r == s
    ensures FindParticipation(r, k, a.user).Some?
    ensures |r.participations| <= |s.participations| + 1
    ensures |r.participations| > |s.participations| ==> FindParticipation(s, k, a.user).None?
    ensures forall i :: |s.participations| <= i < |r.participations| ==>
      var p := r.participations[i];
      p.standup == k && p.user == a.user && p.readOnly == a.readOnly && IsToken(p.token) && !p.completed && !p.notified
  {
    if FindParticipation(s, k, a.user).Some? then s
    else
      var r := SaveParticipation(s, |s.participations|, Participation(k, a.user, a.readOnly, "", false, false), mint(|s.participations|));
      assert r.participations[|s.participations|].standup == k && r.participations[|s.participations|].user == a.user;
      r
  }

  /**
   * The loop body of `initiate` for one attendee: the weekday gate, the
   * minimum-gap gate (only when today's standup does not exist yet), the
   * mute gate, then today's standup is created if missing and the attendee
   * is enrolled in it.
   */
  function Visit(s: Store, e: nat, a: Attendee, clock: UserKey -> LocalTime, mint: nat -> Token): (r: Sweep)
    requires e < |s.events| && a.user in s.users
    ensures Grows(s, r.store)
    ensures forall i :: NewlyNotified(s, r.store, i) <==> i in r.due
    ensures |r.due| <= 1
    ensures forall i :: i in r.due ==> DueFor(r.store, e, clock, i)
    ensures |r.store.standups| <= |s.standups| + 1
    ensures forall k :: |s.standups| <= k < |r.store.standups| ==>
      && r.store.standups[k].event == e
      && r.store.standups[k].date == clock(a.user).date
      && Eligible(s, e, a, clock)
      && FindStandup(s, e, clock(a.user).date).None?
      && !GapBlocks(s, e, clock(a.user).date)
    ensures forall i :: |s.participations| <= i < |r.store.participations| ==>
      var p := r.store.participations[i];
      && p.user == a.user && p.readOnly == a.readOnly && Eligible(s, e, a, clock)
      && p.standup < |r.store.standups|
      && r.store.standups[p.standup].event == e && r.store.standups[p.standup].date == clock(a.user).date
      && IsToken(p.token) && !p.completed
    ensures StandupsUniqueFrom(r.store, |s.standups|)
    ensures ParticipationsUniqueFrom(r.store, |s.participations|)
    ensures SpacedFrom(r.store, e, s.events[e].kind.minimumDays, |s.standups|)
  {
    var now := clock(a.user);
    var found := FindStandup(s, e, now.date);
    if !InTimeslot(s.events[e].kind, now) then Sweep(s, [])
    else if found.None? && GapBlocks(s, e, now.date) then Sweep(s, [])
    else if Muted(s.users[a.user], now.date) then Sweep(s, [])
    else if found.None? then
      NewStandupSweep(s, e, a, clock, mint);
      NewStandupRows(s, e, a, clock, mint);
      NewStandupUnique(s, e, a, clock, mint);
      Enroll(AddStandup(s, e, now.date), e, |s.standups|, a, clock, mint)
    else
      FoundStandupEnroll(s, e, found.value, a, clock, mint);
      Enroll(s, e, found.value, a, clock, mint)
  }

  /** The store with a new standup of event `e` dated `d` appended, not pinned and not to rebuild. */
  function AddStandup(s: Store, e: nat, d: Date): (r: Store)
    ensures Grows(s, r) && r.participations == s.participations
    ensures r.standups == s.standups + [Standup(e, d, None, false)]
  {
    s.(standups := s.standups + [Standup(e, d, None, false)])
  }

  /** Enrolling in a newly created standup grows the store and reports exactly the participations it made due. */
  lemma NewStandupSweep(s: Store, e: nat, a: Attendee, clock: UserKey -> LocalTime, mint: nat -> Token)
    requires e < |s.events| && a.user in s.users
    ensures var r := Enroll(AddStandup(s, e, clock(a.user).date), e, |s.standups|, a, clock, mint);
      && Grows(s, r.store)
      && (forall i :: NewlyNotified(s, r.store, i) <==> i in r.due)
      && |r.store.standups| == |s.standups| + 1
  {
    var s1 := AddStandup(s, e, clock(a.user).date);
    var r := Enroll(s1, e, |s.standups|, a, clock, mint);
    GrowsTransitive(s, s1, r.store);
    assert forall i :: NewlyNotified(s, r.store, i) == NewlyNotified(s1, r.store, i);
  }

  /** The standup and the participation made by enrolling in a new standup are those of the eligible attendee on their local date. */
  lemma NewStandupRows(s: Store, e: nat, a: Attendee, clock: UserKey -> LocalTime, mint: nat -> Token)
    requires e < |s.events| && a.user in s.users
    requires Eligible(s, e, a, clock)
    requires FindStandup(s, e, clock(a.user).date).None? && !GapBlocks(s, e, clock(a.user).date)
    ensures var r := Enroll(AddStandup(s, e, clock(a.user).date), e, |s.standups|, a, clock, mint);
      forall k :: |s.standups| <= k < |r.store.standups| ==>
        && r.store.standups[k].event == e
        && r.store.standups[k].date == clock(a.user).date
        && Eligible(s, e, a, clock)
        && FindStandup(s, e, clock(a.user).date).None?
        && !GapBlocks(s, e, clock(a.user).date)
    ensures var r := Enroll(AddStandup(s, e, clock(a.user).date), e, |s.standups|, a, clock, mint);
      forall i :: |s.participations| <= i < |r.store.participations| ==>
        var p := r.store.participations[i];
        && p.user == a.user && p.readOnly == a.readOnly && Eligible(s, e, a, clock)
        && p.standup < |r.store.standups|
        && r.store.standups[p.standup].event == e && r.store.standups[p.standup].date == clock(a.user).date
        && IsToken(p.token) && !p.completed
  {
    var s1 := AddStandup(s, e, clock(a.user).date);
    var r := Enroll(s1, e, |s.standups|, a, clock, mint);
    assert r.store.standups[|s.standups|] == s1.standups[|s.standups|].(rebuild := r.store.standups[|s.standups|].rebuild);
  }

  /**
   * A standup created where none existed and the gap rule allows one keeps
   * standups unique and spaced, and the enrolment keeps participations unique.
   */
  lemma NewStandupUnique(s: Store, e: nat, a: Attendee, clock: UserKey -> LocalTime, mint: nat -> Token)
    requires e < |s.events| && a.user in s.users
    requires FindStandup(s, e, clock(a.user).date).None? && !GapBlocks(s, e, clock(a.user).date)
    ensures var r := Enroll(AddStandup(s, e, clock(a.user).date), e, |s.standups|, a, clock, mint);
      && StandupsUniqueFrom(r.store, |s.standups|)
      && ParticipationsUniqueFrom(r.store, |s.participations|)
      && SpacedFrom(r.store, e, s.events[e].kind.minimumDays, |s.standups|)
  {
    var d := clock(a.user).date;
    var s1 := AddStandup(s, e, d);
    var r := Enroll(s1, e, |s.standups|, a, clock, mint);
    var t := r.store;
    forall j | 0 <= j < |s.standups|
      ensures t.standups[j].event == s.standups[j].event && t.standups[j].date == s.standups[j].date
    {
      assert t.standups[j] == s1.standups[j].(rebuild := t.standups[j].rebuild);
    }
    assert t.standups[|s.standups|] == s1.standups[|s.standups|].(rebuild := t.standups[|s.standups|].rebuild);
    EnrollKeepsParticipationsUnique(s1, e, |s.standups|, a, clock, mint);
  }

  /** Enrolling adds a participation only for a user without one in the standup, so no user gets two. */
  lemma EnrollKeepsParticipationsUnique(s: Store, e: nat, k: nat, a: Attendee, clock: UserKey -> LocalTime, mint: nat -> Token)
    requires e < |s.events| && k < |s.standups|
    requires s.standups[k].event == e && s.standups[k].date == clock(a.user).date
    ensures ParticipationsUniqueFrom(Enroll(s, e, k, a, clock, mint).store, |s.participations|)
  {
    var t := Enroll(s, e, k, a, clock, mint).store;
    forall i, j | 0 <= i < j < |t.participations| && |s.participations| <= j
      ensures !(t.participations[i].standup == t.participations[j].standup && t.participations[i].user == t.participations[j].user)
    {
      assert t.participations[i] == s.participations[i].(notified := t.participations[i].notified, token := t.participations[i].token);
    }
  }

  /** Enrolling in a standup that already exists creates no standup and keeps participations unique. */
  lemma FoundStandupEnroll(s: Store, e: nat, k: nat, a: Attendee, clock: UserKey -> LocalTime, mint: nat -> Token)
    requires e < |s.events| && k < |s.standups| && a.user in s.users
    requires s.standups[k].event == e && s.standups[k].date == clock(a.user).date
    requires Eligible(s, e, a, clock)
    ensures var r := Enroll(s, e, k, a, clock, mint);
      && StandupsUniqueFrom(r.store, |s.standups|)
      && ParticipationsUniqueFrom(r.store, |s.participations|)
      && SpacedFrom(r.store, e, s.events[e].kind.minimumDays, |s.standups|)
    ensures var r := Enroll(s, e, k, a, clock, mint);
      forall i :: |s.participations| <= i < |r.store.participations| ==>
        var p := r.store.participations[i];
        && p.user == a.user && p.readOnly == a.readOnly && Eligible(s, e, a, clock)
        && p.standup < |r.store.standups|
        && r.store.standups[p.standup].event == e && r.store.standups[p.standup].date == clock(a.user).date
        && IsToken(p.token) && !p.completed
  {
    var r := Enroll(s, e, k, a, clock, mint);
    assert r.store.standups[k] == s.standups[k].(rebuild := r.store.standups[k].rebuild);
    EnrollKeepsParticipationsUnique(s, e, k, a, clock, mint);
  }

  /** Visits the attendees in order, each seeing the store the previous ones left. */
  function Run(s: Store, e: nat, atts: seq<Attendee>, clock: UserKey -> LocalTime, mint: nat -> Token): (r: Sweep)
    requires e < |s.events|
    requires forall a :: a in atts ==> a.user in s.users
    ensures Grows(s, r.store)
    ensures forall i :: NewlyNotified(s, r.store, i) <==> i in r.due
    ensures forall i, j :: 0 <= i < j < |r.due| ==> r.due[i] != r.due[j]
    ensures forall i :: i in r.due ==> DueFor(r.store, e, clock, i)
    decreases |atts|
  {
    if |atts| == 0 then Sweep(s, [])
    else
      var first := Visit(s, e, atts[0], clock, mint);
      var rest := Run(first.store, e, atts[1..], clock, mint);
      ChainSweeps(s, e, clock, first, rest);
      Sweep(rest.store, first.due + rest.due)
  }

  /** Two consecutive sweeps compose into one with the same guarantees. */
  lemma ChainSweeps(s: Store, e: nat, clock: UserKey -> LocalTime, first: Sweep, rest: Sweep)
    requires e < |s.events|
    requires Grows(s, first.store) && Grows(first.store, rest.store)
    requires forall i :: NewlyNotified(s, first.store, i) <==> i in first.due
    requires forall i :: NewlyNotified(first.store, rest.store, i) <==> i in rest.due
    requires forall i, j :: 0 <= i < j < |first.due| ==> first.due[i] != first.due[j]
    requires forall i, j :: 0 <= i < j < |rest.due| ==> rest.due[i] != rest.due[j]
    requires forall i :: i in first.due ==> DueFor(first.store, e, clock, i)
    requires forall i :: i in rest.due ==> DueFor(rest.store, e, clock, i)
    ensures Grows(s, rest.store)
    ensures forall i :: NewlyNotified(s, rest.store, i) <==> i in first.due + rest.due
    ensures forall i, j :: 0 <= i < j < |first.due + rest.due| ==> (first.due + rest.due)[i] != (first.due + rest.due)[j]
    ensures forall i :: i in first.due + rest.due ==> DueFor(rest.store, e, clock, i)
  {
    GrowsTransitive(s, first.store, rest.store);
    var due := first.due + rest.due;
    forall i
      ensures NewlyNotified(s, rest.store, i) <==> i in due
    {
      if NewlyNotified(s, first.store, i) {
        assert NewlyNotified(s, rest.store, i);
      }
    }
    forall i, j | 0 <= i < j < |due|
      ensures due[i] != due[j]
    {
      if i < |first.due| && j >= |first.due| {
        assert due[i] in first.due && due[j] in rest.due;
        assert NewlyNotified(s, first.store, due[i]);
      }
    }
    forall i | i in due
      ensures DueFor(rest.store, e, clock, i)
    {
      if i in first.due {
        assert DueFor(first.store, e, clock, i);
        var k := first.store.participations[i].standup;
        assert rest.store.participations[i].standup == k;
        assert rest.store.standups[k].event == first.store.standups[k].event;
      }
    }
  }

  /**
   * `StandupEvent.initiate`: one pass over the event's active attendees.
   * It always reports success; the due list holds exactly the
   * participations it notified, each once.
   */
  function Initiate(s: Store, e: nat, clock: UserKey -> LocalTime, mint: nat -> Token): (r: Tick)
    requires e < |s.events| && AttendeeUsersKnown(s)
    ensures r.ok
    ensures Grows(s, r.store)
    ensures forall i :: NewlyNotified(s, r.store, i) <==> i in r.due
    ensures forall i, j :: 0 <= i < j < |r.due| ==> r.due[i] != r.due[j]
    ensures forall i :: i in r.due ==> DueFor(r.store, e, clock, i)
  {
    var sweep := Run(s, e, ActiveAttendees(s, e), clock, mint);
    Tick(true, sweep.due, sweep.store)
  }
}

=== FILE: lifecycle_proofs.dfy ===
/**
 * Properties of `initiate` that relate a whole pass to its parts:
 * uniqueness of standups and participations, the minimum-gap spacing,
 * that nothing is created on behalf of an ineligible attendee, and that a
 * second pass with the same clocks changes nothing and notifies nobody.
 */
module LifecycleProofs {
  import opened Schedule
  import opened Store
  import opened Lifecycle

  // ----- Stability of lookups as the store grows ---------------------------

  lemma FindStandupStable(s: Store, t: Store, e: nat, d: Date)
    requires Grows(s, t) && FindStandup(s, e, d).Some?
    ensures FindStandup(t, e, d) == FindStandup(s, e, d)
  {
    var k := FindStandup(s, e, d).value;
    assert t.standups[k].event == e && t.standups[k].date == d;
  }

  lemma FindStandupAbsentStable(s: Store, t: Store, e: nat, d: Date)
    requires Grows(s, t) && FindStandup(s, e, d).None?
    requires forall k :: |s.standups| <= k < |t.standups| ==> t.standups[k].date != d
    ensures FindStandup(t, e, d).None?
  {
  }

  lemma FindParticipationStable(s: Store, t: Store, k: nat, u: UserKey)
    requires Grows(s, t) && FindParticipation(s, k, u).Some?
    ensures FindParticipation(t, k, u).Some?
  {
    var i := FindParticipation(s, k, u).value;
    assert t.participations[i].standup == k && t.participations[i].user == u;
  }

  lemma AnyNotifiedStable(s: Store, t: Store, k: nat, u: UserKey)
    requires Grows(s, t) && AnyNotified(s, k, u)
    ensures AnyNotified(t, k, u)
  {
    var i :| 0 <= i < |s.participations| && s.participations[i].standup == k
      && s.participations[i].user == u && s.participations[i].notified;
    assert t.participations[i].standup == k && t.participations[i].user == u && t.participations[i].notified;
  }

  lemma GapBlocksStable(s: Store, t: Store, e: nat, d: Date)
    requires e < |s.events| && Grows(s, t) && GapBlocks(s, e, d)
    ensures GapBlocks(t, e, d)
  {
    var n := s.events[e].kind.minimumDays;
    var k :| 0 <= k < |s.standups| && s.standups[k].event == e && s.standups[k].date >= d - n;
    assert t.standups[k].event == e && t.standups[k].date >= d - n;
  }

  // ----- What a pass creates -----------------------------------------------

  /** Standup `st` of `t` is the standup of `e` for eligible attendee `a`'s local date. */
  ghost predicate StandupBackedBy(t: Store, e: nat, a: Attendee, clock: UserKey -> LocalTime, st: Standup)
    requires e < |t.events|
  {
    && a.user in t.users
    && st.event == e && st.date == clock(a.user).date
    && Eligible(t, e, a, clock)
  }

  /**
   * Participation `p` of `t` is eligible attendee `a`'s enrolment in the
   * standup of `e` for `a`'s local date, carries `a`'s read-only flag and a
   * drawn token, and is not completed.
   */
  ghost predicate ParticipationBackedBy(t: Store, e: nat, a: Attendee, clock: UserKey -> LocalTime, p: Participation)
    requires e < |t.events|
  {
    && a.user in t.users
    && p.user == a.user && p.readOnly == a.readOnly
    && p.standup < |t.standups|
    && t.standups[p.standup].event == e
    && t.standups[p.standup].date == clock(a.user).date
    && IsToken(p.token) && !p.completed
    && Eligible(t, e, a, clock)
  }

  /** Some attendee in `atts` backs standup `st`. */
  ghost predicate StandupHasBacker(t: Store, e: nat, atts: seq<Attendee>, clock: UserKey -> LocalTime, st: Standup)
    requires e < |t.events|
  {
    exists a :: a in atts && StandupBackedBy(t, e, a, clock, st)
  }

  /** Every standup of `t` beyond those of `s` is backed by an attendee in `atts`. */
  ghost predicate StandupsBacked(s: Store, t: Store, e: nat, atts: seq<Attendee>, clock: UserKey -> LocalTime)
    requires e < |t.events|
  {
    forall k :: |s.standups| <= k < |t.standups| ==> StandupHasBacker(t, e, atts, clock, t.standups[k])
  }

  /** Some attendee in `atts` backs participation `p`. */
  ghost predicate ParticipationHasBacker(t: Store, e: nat, atts: seq<Attendee>, clock: UserKey -> LocalTime, p: Participation)
    requires e < |t.events|
  {
    exists a :: a in atts && ParticipationBackedBy(t, e, a, clock, p)
  }

  /** Every participation of `t` beyond those of `s` is backed by an attendee in `atts`. */
  ghost predicate ParticipationsBacked(s: Store, t: Store, e: nat, atts: seq<Attendee>, clock: UserKey -> LocalTime)
    requires e < |t.events|
  {
    forall i :: |s.participations| <= i < |t.participations| ==> ParticipationHasBacker(t, e, atts, clock, t.participations[i])
  }

  /**
   * A pass never creates a second standup for an (event, date) or a second
   * participation for a (standup, user), and with a positive minimum gap
   * every standup it creates lies more than that many days after every
   * standup of the event before it.
   */
  lemma {:induction false} RunCreatesNoDuplicates(s: Store, e: nat, atts: seq<Attendee>, clock: UserKey -> LocalTime, mint: nat -> Token)
    requires e < |s.events|
    requires forall a :: a in atts ==> a.user in s.users
    ensures var t := Run(s, e, atts, clock, mint).store;
      && StandupsUniqueFrom(t, |s.standups|)
      && ParticipationsUniqueFrom(t, |s.participations|)
      && SpacedFrom(t, e, s.events[e].kind.minimumDays, |s.standups|)
    decreases |atts|
  {
    if |atts| > 0 {
      var first := Visit(s, e, atts[0], clock, mint);
      var t := Run(first.store, e, atts[1..], clock, mint).store;
      assert Run(s, e, atts, clock, mint).store == t;
      RunCreatesNoDuplicates(first.store, e, atts[1..], clock, mint);
      var n := s.events[e].kind.minimumDays;
      forall j, k | 0 <= j < k < |t.standups| && |s.standups| <= k
        ensures !(t.standups[j].event == t.standups[k].event && t.standups[j].date == t.standups[k].date)
        ensures n > 0 && t.standups[j].event == e && t.standups[k].event == e ==> t.standups[j].date + n < t.standups[k].date
      {
        if k < |first.store.standups| {
          assert t.standups[j].event == first.store.standups[j].event && t.standups[j].date == first.store.standups[j].date;
          assert t.standups[k].event == first.store.standups[k].event && t.standups[k].date == first.store.standups[k].date;
        }
      }
      forall i, j | 0 <= i < j < |t.participations| && |s.participations| <= j
        ensures !(t.participations[i].standup == t.participations[j].standup && t.participations[i].user == t.participations[j].user)
      {
        if j < |first.store.participations| {
          assert t.participations[i].standup == first.store.participations[i].standup;
          assert t.participations[j].standup == first.store.participations[j].standup;
        }
      }
    }
  }

  /** Every standup a pass creates is backed by an eligible attendee of the pass. */
  lemma {:induction false} RunCreatesStandupsOnlyForEligible(s: Store, e: nat, atts: seq<Attendee>, clock: UserKey -> LocalTime, mint: nat -> Token)
    requires e < |s.events|
    requires forall a :: a in atts ==> a.user in s.users
    ensures StandupsBacked(s, Run(s, e, atts, clock, mint).store, e, atts, clock)
    decreases |atts|
  {
    if |atts| > 0 {
      var a0 := atts[0];
      var first := Visit(s, e, a0, clock, mint);
      var t := Run(first.store, e, atts[1..], clock, mint).store;
      assert Run(s, e, atts, clock, mint).store == t;
      RunCreatesStandupsOnlyForEligible(first.store, e, atts[1..], clock, mint);
      forall k | |s.standups| <= k < |t.standups|
        ensures StandupHasBacker(t, e, atts, clock, t.standups[k])
      {
        if k < |first.store.standups| {
          assert StandupBackedBy(t, e, a0, clock, t.standups[k]);
        } else {
          assert StandupHasBacker(t, e, atts[1..], clock, t.standups[k]);
          var a :| a in atts[1..] && StandupBackedBy(t, e, a, clock, t.standups[k]);
          assert a in atts;
        }
      }
    }
  }

  /** Every participation a pass creates is backed by an eligible attendee of the pass. */
  lemma {:induction false} RunEnrollsOnlyEligible(s: Store, e: nat, atts: seq<Attendee>, clock: UserKey -> LocalTime, mint: nat -> Token)
    requires e < |s.events|
    requires forall a :: a in atts ==> a.user in s.users
    ensures ParticipationsBacked(s, Run(s, e, atts, clock, mint).store, e, atts, clock)
    decreases |atts|
  {
    if |atts| > 0 {
      var a0 := atts[0];
      var first := Visit(s, e, a0, clock, mint);
      var t := Run(first.store, e, atts[1..], clock, mint).store;
      assert Run(s, e, atts, clock, mint).store == t;
      RunEnrollsOnlyEligible(first.store, e, atts[1..], clock, mint);
      forall i | |s.participations| <= i < |t.participations|
        ensures exists a :: a in atts && ParticipationBackedBy(t, e, a, clock, t.participations[i])
      {
        if i < |first.store.participations| {
          VisitBackingSurvives(s, e, a0, clock, mint, t, i);
          assert a0 in atts;
        } else {
          BackedAt(first.store, t, e, atts[1..], clock, i);
          var a :| a in atts[1..] && ParticipationBackedBy(t, e, a, clock, t.participations[i]);
          assert a in atts;
        }
      }
      assert ParticipationsBacked(s, t, e, atts, clock);
    }
  }

  /** The backing of one participation, taken from the backing of all of them. */
  lemma BackedAt(s: Store, t: Store, e: nat, atts: seq<Attendee>, clock: UserKey -> LocalTime, i: nat)
    requires e < |t.events| && ParticipationsBacked(s, t, e, atts, clock)
    requires |s.participations| <= i < |t.participations|
    ensures exists a :: a in atts && ParticipationBackedBy(t, e, a, clock, t.participations[i])
  {
    assert ParticipationHasBacker(t, e, atts, clock, t.participations[i]);
  }

  /** A participation made by visiting `a` stays backed by `a` in every store the pass grows it into. */
  lemma VisitBackingSurvives(s: Store, e: nat, a: Attendee, clock: UserKey -> LocalTime, mint: nat -> Token, t: Store, i: nat)
    requires e < |s.events| && a.user in s.users
    requires Grows(Visit(s, e, a, clock, mint).store, t)
    requires |s.participations| <= i < |Visit(s, e, a, clock, mint).store.participations|
    ensures ParticipationBackedBy(t, e, a, clock, t.participations[i])
  {
    var f := Visit(s, e, a, clock, mint).store;
    var k := f.participations[i].standup;
    assert t.participations[i] == f.participations[i].(notified := t.participations[i].notified, token := t.participations[i].token);
    assert t.standups[k] == f.standups[k].(rebuild := t.standups[k].rebuild);
  }

  /**
   * `initiate` keeps the store free of duplicate standups per (event, date)
   * and duplicate participations per (standup, user), and keeps the
   * event's standups spaced by more than the minimum gap.
   */
  lemma InitiateKeepsUniqueness(s: Store, e: nat, clock: UserKey -> LocalTime, mint: nat -> Token)
    requires e < |s.events| && AttendeeUsersKnown(s)
    requires StandupsUniqueFrom(s, 0) && ParticipationsUniqueFrom(s, 0)
    requires SpacedFrom(s, e, s.events[e].kind.minimumDays, 0)
    ensures var t := Initiate(s, e, clock, mint).store;
      StandupsUniqueFrom(t, 0) && ParticipationsUniqueFrom(t, 0)
      && SpacedFrom(t, e, s.events[e].kind.minimumDays, 0)
  {
    var t := Initiate(s, e, clock, mint).store;
    RunCreatesNoDuplicates(s, e, ActiveAttendees(s, e), clock, mint);
    var n := s.events[e].kind.minimumDays;
    forall j, k | 0 <= j < k < |t.standups|
      ensures !(t.standups[j].event == t.standups[k].event && t.standups[j].date == t.standups[k].date)
      ensures n > 0 && t.standups[j].event == e && t.standups[k].event == e ==> t.standups[j].date + n < t.standups[k].date
    {
      if k < |s.standups| {
        assert t.standups[j].event == s.standups[j].event && t.standups[j].date == s.standups[j].date;
        assert t.standups[k].event == s.standups[k].event && t.standups[k].date == s.standups[k].date;
      }
    }
    forall i, j | 0 <= i < j < |t.participations|
      ensures !(t.participations[i].standup == t.participations[j].standup && t.participations[i].user == t.participations[j].user)
    {
      if j < |s.participations| {
        assert t.participations[i].standup == s.participations[i].standup;
        assert t.participations[j].standup == s.participations[j].standup;
      }
    }
  }

  /**
   * Nothing is created on behalf of user `u` when none of the event's
   * active attendees for `u` is eligible: `u` is not an active attendee,
   * `u`'s local day is not a scheduled weekday, or `u` is muted through it.
   * When no active attendee at all is eligible, no standup is created.
   */
  lemma InitiateSkipsIneligible(s: Store, e: nat, clock: UserKey -> LocalTime, mint: nat -> Token, u: UserKey)
    requires e < |s.events| && AttendeeUsersKnown(s)
    ensures var t := Initiate(s, e, clock, mint).store;
      && ((forall a :: a in ActiveAttendees(s, e) && a.user == u ==> !Eligible(s, e, a, clock)) ==>
           NoneEnrolled(s, t, u))
      && ((forall a :: a in ActiveAttendees(s, e) ==> !Eligible(s, e, a, clock)) ==>
           |t.standups| == |s.standups| && |t.participations| == |s.participations|)
  {
    var atts := ActiveAttendees(s, e);
    var t := Initiate(s, e, clock, mint).store;
    RunCreatesStandupsOnlyForEligible(s, e, atts, clock, mint);
    RunEnrollsOnlyEligible(s, e, atts, clock, mint);
    if forall a :: a in atts && a.user == u ==> !Eligible(s, e, a, clock) {
      UnbackedUserNotEnrolled(s, t, e, atts, clock, u);
    }
    if forall a :: a in atts ==> !Eligible(s, e, a, clock) {
      UnbackedNothingCreated(s, t, e, atts, clock);
    }
  }

  /** No participation of `t` beyond those of `s` belongs to user `u`. */
  ghost predicate NoneEnrolled(s: Store, t: Store, u: UserKey)
  {
    forall i :: |s.participations| <= i < |t.participations| ==> t.participations[i].user != u
  }

  lemma UnbackedUserNotEnrolled(s: Store, t: Store, e: nat, atts: seq<Attendee>, clock: UserKey -> LocalTime, u: UserKey)
    requires e < |s.events| && t.events == s.events && t.users == s.users
    requires ParticipationsBacked(s, t, e, atts, clock)
    requires forall a :: a in atts && a.user == u && a.user in s.users ==> !Eligible(s, e, a, clock)
    ensures NoneEnrolled(s, t, u)
  {
    forall i | |s.participations| <= i < |t.participations|
      ensures t.participations[i].user != u
    {
      var p := t.participations[i];
      assert exists a :: a in atts && ParticipationBackedBy(t, e, a, clock, p);
      var a :| a in atts && ParticipationBackedBy(t, e, a, clock, p);
      assert a.user in s.users && Eligible(s, e, a, clock);
    }
  }

  lemma UnbackedNothingCreated(s: Store, t: Store, e: nat, atts: seq<Attendee>, clock: UserKey -> LocalTime)
    requires e < |s.events| && t.events == s.events && t.users == s.users
    requires |s.standups| <= |t.standups| && |s.participations| <= |t.participations|
    requires StandupsBacked(s, t, e, atts, clock) && ParticipationsBacked(s, t, e, atts, clock)
    requires forall a :: a in atts && a.user in s.users ==> !Eligible(s, e, a, clock)
    ensures |t.standups| == |s.standups| && |t.participations| == |s.participations|
  {
    CreationHasEligibleBacker(s, t, e, atts, clock);
  }

  lemma CreationHasEligibleBacker(s: Store, t: Store, e: nat, atts: seq<Attendee>, clock: UserKey -> LocalTime)
    requires e < |s.events| && t.events == s.events && t.users == s.users
    requires StandupsBacked(s, t, e, atts, clock) && ParticipationsBacked(s, t, e, atts, clock)
    ensures |t.standups| > |s.standups| || |t.participations| > |s.participations| ==>
      exists a :: a in atts && a.user in s.users && Eligible(s, e, a, clock)
  {
    if |t.standups| > |s.standups| {
      var k := |s.standups|;
      assert StandupHasBacker(t, e, atts, clock, t.standups[k]);
      var a :| a in atts && StandupBackedBy(t, e, a, clock, t.standups[k]);
    } else if |t.participations| > |s.participations| {
      var i := |s.participations|;
      assert exists a :: a in atts && ParticipationBackedBy(t, e, a, clock, t.participations[i]);
      var a :| a in atts && ParticipationBackedBy(t, e, a, clock, t.participations[i]);
    }
  }

  /**
   * Every participation `initiate` creates belongs to an eligible active
   * attendee, copies that attendee's read-only flag, and has a token.
   */
  lemma InitiateEnrollsEligible(s: Store, e: nat, clock: UserKey -> LocalTime, mint: nat -> Token)
    requires e < |s.events| && AttendeeUsersKnown(s)
    ensures ParticipationsBacked(s, Initiate(s, e, clock, mint).store, e, ActiveAttendees(s, e), clock)
  {
    RunEnrollsOnlyEligible(s, e, ActiveAttendees(s, e), clock, mint);
  }

  /**
   * Conversely, every eligible active attendee ends up enrolled in the
   * standup for their local date, unless the minimum gap kept that standup
   * from being created.
   */
  lemma InitiateEnrollsEveryEligible(s: Store, e: nat, clock: UserKey -> LocalTime, mint: nat -> Token, a: Attendee)
    requires e < |s.events| && AttendeeUsersKnown(s)
    requires a in ActiveAttendees(s, e) && Eligible(s, e, a, clock)
    ensures var t := Initiate(s, e, clock, mint).store;
      var found := FindStandup(t, e, clock(a.user).date);
      (found.Some? && FindParticipation(t, found.value, a.user).Some?)
      || (found.None? && GapBlocks(t, e, clock(a.user).date))
  {
    RunQuietsAll(s, e, ActiveAttendees(s, e), clock, mint);
  }

  // ----- A second pass is a no-op ------------------------------------------

  /**
   * Visiting `a` in `s` would change nothing: `a` is ineligible, blocked by
   * the minimum gap, or already enrolled in today's standup and either
   * notified or not yet due.
   */
  ghost predicate Quiet(s: Store, e: nat, a: Attendee, clock: UserKey -> LocalTime)
    requires e < |s.events| && a.user in s.users
  {
    var now := clock(a.user);
    var found := FindStandup(s, e, now.date);
    || !Eligible(s, e, a, clock)
    || (found.None? && GapBlocks(s, e, now.date))
    || (found.Some? && FindParticipation(s, found.value, a.user).Some?
        && (AnyNotified(s, found.value, a.user) || now.time <= s.events[e].kind.createAt))
  }

  lemma QuietVisitIsNoop(s: Store, e: nat, a: Attendee, clock: UserKey -> LocalTime, mint: nat -> Token)
    requires e < |s.events| && a.user in s.users
    requires Quiet(s, e, a, clock)
    ensures Visit(s, e, a, clock, mint) == Sweep(s, [])
  {
    var now := clock(a.user);
    var found := FindStandup(s, e, now.date);
    if Eligible(s, e, a, clock) && found.Some? && !AnyNotified(s, found.value, a.user) {
      var i := FindParticipation(s, found.value, a.user).value;
      assert !s.participations[i].notified;
    }
  }

  lemma VisitQuiets(s: Store, e: nat, a: Attendee, clock: UserKey -> LocalTime, mint: nat -> Token)
    requires e < |s.events| && a.user in s.users
    ensures Quiet(Visit(s, e, a, clock, mint).store, e, a, clock)
  {
    var now := clock(a.user);
    var found := FindStandup(s, e, now.date);
    if Eligible(s, e, a, clock) && !(found.None? && GapBlocks(s, e, now.date)) {
      if found.None? {
        var s1 := AddStandup(s, e, now.date);
        assert s1.standups[|s.standups|].event == e && s1.standups[|s.standups|].date == now.date;
        assert forall j :: 0 <= j < |s.standups| ==> s1.standups[j] == s.standups[j];
        assert FindStandup(s1, e, now.date) == Some(|s.standups|);
        EnrollQuiets(s1, e, |s.standups|, a, clock, mint);
      } else {
        EnrollQuiets(s, e, found.value, a, clock, mint);
      }
    }
  }

  /** Enrolling `a` in today's standup `k` leaves `a` quiet. */
  lemma EnrollQuiets(s: Store, e: nat, k: nat, a: Attendee, clock: UserKey -> LocalTime, mint: nat -> Token)
    requires e < |s.events| && k < |s.standups| && a.user in s.users
    requires s.standups[k].event == e && s.standups[k].date == clock(a.user).date
    requires FindStandup(s, e, clock(a.user).date) == Some(k)
    ensures Quiet(Enroll(s, e, k, a, clock, mint).store, e, a, clock)
  {
    var t := Enroll(s, e, k, a, clock, mint).store;
    FindStandupStable(s, t, e, clock(a.user).date);
  }

  lemma QuietPersists(s: Store, e: nat, a: Attendee, b: Attendee, clock: UserKey -> LocalTime, mint: nat -> Token)
    requires e < |s.events| && a.user in s.users && b.user in s.users
    requires Quiet(s, e, a, clock)
    ensures Quiet(Visit(s, e, b, clock, mint).store, e, a, clock)
  {
    var t := Visit(s, e, b, clock, mint).store;
    var now := clock(a.user);
    var found := FindStandup(s, e, now.date);
    if !Eligible(s, e, a, clock) {
    } else if found.None? && GapBlocks(s, e, now.date) {
      GapBlocksStable(s, t, e, now.date);
      FindStandupAbsentStable(s, t, e, now.date);
    } else {
      FindStandupStable(s, t, e, now.date);
      FindParticipationStable(s, t, found.value, a.user);
      if AnyNotified(s, found.value, a.user) {
        AnyNotifiedStable(s, t, found.value, a.user);
      }
    }
  }

  lemma {:induction false} RunQuietPersists(s: Store, e: nat, a: Attendee, bs: seq<Attendee>, clock: UserKey -> LocalTime, mint: nat -> Token)
    requires e < |s.events| && a.user in s.users
    requires forall b :: b in bs ==> b.user in s.users
    requires Quiet(s, e, a, clock)
    ensures Quiet(Run(s, e, bs, clock, mint).store, e, a, clock)
    decreases |bs|
  {
    if |bs| > 0 {
      var first := Visit(s, e, bs[0], clock, mint);
      QuietPersists(s, e, a, bs[0], clock, mint);
      RunQuietPersists(first.store, e, a, bs[1..], clock, mint);
    }
  }

  lemma {:induction false} RunQuietsAll(s: Store, e: nat, atts: seq<Attendee>, clock: UserKey -> LocalTime, mint: nat -> Token)
    requires e < |s.events|
    requires forall a :: a in atts ==> a.user in s.users
    ensures forall a :: a in atts ==> Quiet(Run(s, e, atts, clock, mint).store, e, a, clock)
    decreases |atts|
  {
    if |atts| > 0 {
      var first := Visit(s, e, atts[0], clock, mint);
      var t := Run(s, e, atts, clock, mint).store;
      assert t == Run(first.store, e, atts[1..], clock, mint).store;
      VisitQuiets(s, e, atts[0], clock, mint);
      RunQuietPersists(first.store, e, atts[0], atts[1..], clock, mint);
      RunQuietsAll(first.store, e, atts[1..], clock, mint);
      forall a | a in atts
        ensures Quiet(t, e, a, clock)
      {
        if a != atts[0] {
          assert a in atts[1..];
        }
      }
    }
  }

  lemma {:induction false} RunOverQuietIsNoop(s: Store, e: nat, atts: seq<Attendee>, clock: UserKey -> LocalTime, mint: nat -> Token)
    requires e < |s.events|
    requires forall a :: a in atts ==> a.user in s.users && Quiet(s, e, a, clock)
    ensures Run(s, e, atts, clock, mint) == Sweep(s, [])
    decreases |atts|
  {
    if |atts| > 0 {
      QuietVisitIsNoop(s, e, atts[0], clock, mint);
      RunOverQuietIsNoop(s, e, atts[1..], clock, mint);
    }
  }

  /**
   * Calling `initiate` again with the same local clocks changes nothing and
   * returns an empty due list, whatever tokens are drawn.
   */
  lemma InitiateIsIdempotent(s: Store, e: nat, clock: UserKey -> LocalTime, mint: nat -> Token, mint2: nat -> Token)
    requires e < |s.events| && AttendeeUsersKnown(s)
    ensures var t := Initiate(s, e, clock, mint).store;
      AttendeeUsersKnown(t) && Initiate(t, e, clock, mint2) == Tick(true, [], t)
  {
    var atts := ActiveAttendees(s, e);
    var t := Initiate(s, e, clock, mint).store;
    RunQuietsAll(s, e, atts, clock, mint);
    assert ActiveAttendees(t, e) == atts;
    RunOverQuietIsNoop(t, e, atts, clock, mint2);
  }

  /**
   * After `initiate`, every eligible active attendee whose local date has a
   * standup and whose local time is past the due time holds a notified
   * participation in it.
   */
  lemma InitiateNotifiesEveryoneDue(s: Store, e: nat, clock: UserKey -> LocalTime, mint: nat -> Token, a: Attendee)
    requires e < |s.events| && AttendeeUsersKnown(s)
    requires a in ActiveAttendees(s, e) && Eligible(s, e, a, clock)
    requires clock(a.user).time > s.events[e].kind.createAt
    ensures var t := Initiate(s, e, clock, mint).store;
      var found := FindStandup(t, e, clock(a.user).date);
      found.Some? ==> AnyNotified(t, found.value, a.user)
  {
    RunQuietsAll(s, e, ActiveAttendees(s, e), clock, mint);
  }
}

=== FILE: ordering.dfy ===
/**
 * String ordering and the sort used for `order_by('user__first_name')`.
 *
 * Strings compare character by character on code points, a proper prefix
 * sorting first; rows with equal keys keep no promised order.
 */
module Ordering {

  /** `a` sorts no later than `b`. */
  predicate LexLe(a: string, b: string)
  {
    |a| == 0 || (|b| > 0 && (a[0] < b[0] || (a[0] == b[0] && LexLe(a[1..], b[1..]))))
  }

  lemma {:induction false} LexLeTotal(a: string, b: string)
    ensures LexLe(a, b) || LexLe(b, a)
    decreases |a|
  {
    if |a| > 0 && |b| > 0 && a[0] == b[0] {
      LexLeTotal(a[1..], b[1..]);
    }
  }

  lemma {:induction false} LexLeTransitive(a: string, b: string, c: string)
    requires LexLe(a, b) && LexLe(b, c)
    ensures LexLe(a, c)
    decreases |a|
  {
    if |a| > 0 && a[0] == b[0] && b[0] == c[0] {
      LexLeTransitive(a[1..], b[1..], c[1..]);
    }
  }

  lemma {:induction false} LexLeAntisymmetric(a: string, b: string)
    requires LexLe(a, b) && LexLe(b, a)
    ensures a == b
    decreases |a|
  {
    if |a| > 0 {
      LexLeAntisymmetric(a[1..], b[1..]);
      assert a == [a[0]] + a[1..] && b == [b[0]] + b[1..];
    }
  }

  /** A row id with the key it is sorted by. */
  datatype Keyed = Keyed(key: string, id: nat)

  predicate SortedByKey(xs: seq<Keyed>)
  {
    forall i, j :: 0 <= i < j < |xs| ==> LexLe(xs[i].key, xs[j].key)
  }

  /** Places `x` in front of the first element of `xs` whose key it does not exceed. */
  function Insert(x: Keyed, xs: seq<Keyed>): (r: seq<Keyed>)
    requires SortedByKey(xs)
    ensures SortedByKey(r)
    ensures multiset(r) == multiset(xs) + multiset{x}
    decreases |xs|
  {
    if |xs| == 0 then [x]
    else if LexLe(x.key, xs[0].key) then
      assert forall j :: 0 < j < |xs| ==> LexLe(x.key, xs[j].key) by {
        forall j | 0 < j < |xs| ensures LexLe(x.key, xs[j].key) {
          LexLeTransitive(x.key, xs[0].key, xs[j].key);
        }
      }
      [x] + xs
    else
      var rest := Insert(x, xs[1..]);
      LexLeTotal(x.key, xs[0].key);
      assert xs == [xs[0]] + xs[1..];
      assert forall y :: y in rest ==> LexLe(xs[0].key, y.key) by {
        forall y | y in rest ensures LexLe(xs[0].key, y.key) {
          assert y in multiset(rest);
          if y != x {
            assert y in multiset(xs[1..]);
            assert y in xs[1..];
          }
        }
      }
      [xs[0]] + rest
  }

  /** Insertion sort by key. */
  function SortByKey(xs: seq<Keyed>): (r: seq<Keyed>)
    ensures SortedByKey(r)
    ensures multiset(r) == multiset(xs)
    decreases |xs|
  {
    if |xs| == 0 then []
    else
      assert xs == [xs[0]] + xs[1..];
      Insert(xs[0], SortByKey(xs[1..]))
  }

  /** The ids of `xs`, in order. */
  function Ids(xs: seq<Keyed>): (r: seq<nat>)
    ensures |r| == |xs| && forall i :: 0 <= i < |xs| ==> r[i] == xs[i].id
  {
    if |xs| == 0 then [] else [xs[0].id] + Ids(xs[1..])
  }

  lemma IdOfMember(xs: seq<Keyed>, x: Keyed)
    requires x in xs
    ensures x.id in Ids(xs)
  {
    var j :| 0 <= j < |xs| && xs[j] == x;
    assert Ids(xs)[j] == x.id;
  }

  lemma MemberOfId(xs: seq<Keyed>, n: nat) returns (x: Keyed)
    requires n in Ids(xs)
    ensures x in xs && x.id == n
  {
    var j :| 0 <= j < |xs| && Ids(xs)[j] == n;
    x := xs[j];
  }

  /** No two entries of `xs` carry the same id. */
  predicate IdsDistinct(xs: seq<Keyed>)
  {
    forall i, j :: 0 <= i < j < |xs| ==> xs[i].id != xs[j].id
  }

  /** Putting an entry with a new id in front keeps the ids distinct. */
  lemma ConsKeepsIdsDistinct(h: Keyed, rest: seq<Keyed>)
    requires IdsDistinct(rest) && forall y :: y in rest ==> y.id != h.id
    ensures IdsDistinct([h] + rest)
  {
    var r := [h] + rest;
    forall i, j | 0 <= i < j < |r|
      ensures r[i].id != r[j].id
    {
      assert r[j] == rest[j - 1];
      if i == 0 {
        assert rest[j - 1] in rest;
      } else {
        assert r[i] == rest[i - 1];
      }
    }
  }

  /** An entry of a permutation of `xs` is an entry of `xs`. */
  lemma PermutationMember(xs: seq<Keyed>, ys: seq<Keyed>, y: Keyed)
    requires multiset(ys) == multiset(xs) && y in ys
    ensures y in xs
  {
    assert y in multiset(ys);
  }

  /** Inserting an entry with a new id keeps the ids distinct. */
  lemma {:induction false} InsertKeepsIdsDistinct(x: Keyed, xs: seq<Keyed>)
    requires SortedByKey(xs) && IdsDistinct(xs)
    requires forall y :: y in xs ==> y.id != x.id
    ensures IdsDistinct(Insert(x, xs))
    decreases |xs|
  {
    if |xs| == 0 {
      assert Insert(x, xs) == [x];
    } else if LexLe(x.key, xs[0].key) {
      ConsKeepsIdsDistinct(x, xs);
    } else {
      var tail := xs[1..];
      assert IdsDistinct(tail);
      InsertKeepsIdsDistinct(x, tail);
      var rest := Insert(x, tail);
      forall y | y in rest
        ensures y.id != xs[0].id
      {
        if y != x {
          PermutationMember(tail + [x], rest, y);
          assert y in tail;
          var j :| 0 <= j < |tail| && tail[j] == y;
          assert xs[j + 1] == y;
        } else {
          assert xs[0] in xs;
        }
      }
      ConsKeepsIdsDistinct(xs[0], rest);
    }
  }

  /** Sorting entries with distinct ids keeps them distinct: no entry is doubled. */
  lemma {:induction false} SortKeepsIdsDistinct(xs: seq<Keyed>)
    requires IdsDistinct(xs)
    ensures IdsDistinct(SortByKey(xs))
    decreases |xs|
  {
    if |xs| > 0 {
      var tail := xs[1..];
      assert IdsDistinct(tail);
      SortKeepsIdsDistinct(tail);
      var sorted := SortByKey(tail);
      forall y | y in sorted
        ensures y.id != xs[0].id
      {
        assert y in multiset(sorted);
        assert y in multiset(tail);
        var j :| 0 <= j < |tail| && tail[j] == y;
        assert xs[j + 1] == y;
      }
      InsertKeepsIdsDistinct(xs[0], sorted);
    }
  }

  /** Sorting keeps exactly the ids it was given. */
  lemma SortKeepsIds(xs: seq<Keyed>, n: nat)
    ensures n in Ids(SortByKey(xs)) <==> n in Ids(xs)
  {
    var r := SortByKey(xs);
    if n in Ids(r) {
      var x := MemberOfId(r, n);
      assert x in multiset(r);
      assert x in multiset(xs);
      IdOfMember(xs, x);
    }
    if n in Ids(xs) {
      var x := MemberOfId(xs, n);
      assert x in multiset(xs);
      assert x in multiset(r);
      IdOfMember(r, x);
    }
  }
}

=== FILE: schedule.dfy ===
/**
 * Calendar vocabulary and the standup type's weekday gate.
 *
 * Dates are proleptic Gregorian ordinals (day 1 is Monday 1 January of
 * year 1), so the weekday of a date is computed exactly as Python's
 * `date.weekday()` does. Times of day are counted in microseconds, the
 * resolution of Python's `datetime.time`.
 */
module Schedule {

  const MicrosPerMinute: int := 60_000_000
  const MicrosPerDay: int := 86_400_000_000

  type Date = int
  type TimeOfDay = t: int | 0 <= t < MicrosPerDay
  /** Monday is 0 and Sunday is 6. */
  type Weekday = w: int | 0 <= w < 7

  /** A member's wall-clock reading in their own time zone. */
  datatype LocalTime = LocalTime(date: Date, time: TimeOfDay)

  /** One prompt of a standup type; its position in `StandupType.questions` is its order. */
  datatype Question = Question(id: nat, text: string)

  /**
   * A kind of recurring standup: when instances are due, how far apart they
   * must be, how the summary is published, and the ordered questions.
   * `publishAfter` is a duration in microseconds and may be negative.
   */
  datatype StandupType = StandupType(
    name: string,
    commandName: string,
    createAt: TimeOfDay,
    onMonday: bool,
    onTuesday: bool,
    onWednesday: bool,
    onThursday: bool,
    onFriday: bool,
    onSaturday: bool,
    onSunday: bool,
    minimumDays: int,
    isPrivate: bool,
    publishAfter: int,
    publishToChannel: bool,
    questions: seq<Question>)

  function WeekdayOf(d: Date): Weekday
  {
    (d + 6) % 7
  }

  /** The seven weekday flags as a table indexed by weekday. */
  function DayFlags(t: StandupType): (flags: seq<bool>)
    ensures |flags| == 7
  {
    [t.onMonday, t.onTuesday, t.onWednesday, t.onThursday, t.onFriday, t.onSaturday, t.onSunday]
  }

  /** Whether the type creates a standup on the weekday of `at`. */
  function InTimeslot(t: StandupType, at: LocalTime): (r: bool)
    ensures r <==> DayFlags(t)[WeekdayOf(at.date)]
  {
    var wd := WeekdayOf(at.date);
    if wd == 0 then t.onMonday
    else if wd == 1 then t.onTuesday
    else if wd == 2 then t.onWednesday
    else if wd == 3 then t.onThursday
    else if wd == 4 then t.onFriday
    else if wd == 5 then t.onSaturday
    else t.onSunday
  }

  /** The gate looks only at the date, and repeats every seven days. */
  lemma InTimeslotIsWeekly(t: StandupType, a: LocalTime, b: LocalTime)
    requires b.date == a.date + 7
    ensures InTimeslot(t, a) == InTimeslot(t, b)
  {
  }
}

=== FILE: store.dfy ===
/**
 * The persisted entities of the standup bot, the lookups the lifecycle
 * engine performs on them, and the one save with side effects
 * (`StandupParticipation.save`).
 *
 * Every table is a sequence and a row's primary key is its index in it;
 * rows are only ever appended. Users are keyed by their Discord id.
 */
module Store {
  import opened Schedule

  datatype Option<T> = None | Some(value: T)

  type UserKey = string

  predicate IsTokenChar(c: char)
  {
    ('a' <= c <= 'z') || ('A' <= c <= 'Z') || ('0' <= c <= '9')
  }

  /** The shape of a single-use token: 48 ASCII letters and digits. */
  predicate IsToken(s: string)
  {
    |s| == 48 && forall c :: c in s ==> IsTokenChar(c)
  }

  /** `n` copies of `c`. */
  function Repeat(c: char, n: nat): (r: string)
    ensures |r| == n && forall x :: x in r ==> x == c
  {
    if n == 0 then "" else [c] + Repeat(c, n - 1)
  }

  /** A freshly drawn random token; the drawing itself is left to the caller. */
  type Token = s: string | IsToken(s) witness Repeat('a', 48)

  datatype User = User(discordId: string, firstName: string, lastName: string, muteUntil: Option<Date>)

  /** A recurring standup of one type bound to one channel. */
  datatype Event = Event(channel: string, kind: StandupType, createdBy: UserKey)

  datatype Attendee = Attendee(event: nat, user: UserKey, active: bool, readOnly: bool, createdBy: UserKey)

  /** One dated occurrence of an event; `rebuild` asks for the summary to be republished. */
  datatype Standup = Standup(event: nat, date: Date, pinned: Option<string>, rebuild: bool)

  /** One user's expected response to one standup. An empty token means none was drawn yet. */
  datatype Participation = Participation(
    standup: nat,
    user: UserKey,
    readOnly: bool,
    token: string,
    completed: bool,
    notified: bool)

  datatype Answer = Answer(participation: nat, question: nat, text: string)

  datatype Store = Store(
    users: map<UserKey, User>,
    events: seq<Event>,
    attendees: seq<Attendee>,
    standups: seq<Standup>,
    participations: seq<Participation>,
    answers: seq<Answer>)

  predicate Muted(u: User, day: Date)
  {
    u.muteUntil.Some? && u.muteUntil.value >= day
  }

  /** Every attendee's user row exists (the foreign key of `Attendee.user`). */
  predicate AttendeeUsersKnown(s: Store)
  {
    forall i :: 0 <= i < |s.attendees| ==> s.attendees[i].user in s.users
  }

  // ----- Lookups ---------------------------------------------------------

  /** The first standup of event `e` dated `d`. */
  function FindStandup(s: Store, e: nat, d: Date): (r: Option<nat>)
    ensures r.Some? ==> r.value < |s.standups| && s.standups[r.value].event == e && s.standups[r.value].date == d
    ensures r.Some? ==> forall k :: 0 <= k < r.value ==> !(s.standups[k].event == e && s.standups[k].date == d)
    ensures r.None? ==> forall k :: 0 <= k < |s.standups| ==> !(s.standups[k].event == e && s.standups[k].date == d)
  {
    FindStandupFrom(s.standups, e, d, 0)
  }

  function FindStandupFrom(ss: seq<Standup>, e: nat, d: Date, i: nat): (r: Option<nat>)
    requires i <= |ss|
    requires forall k :: 0 <= k < i ==> !(ss[k].event == e && ss[k].date == d)
    ensures r.Some? ==> i <= r.value < |ss| && ss[r.value].event == e && ss[r.value].date == d
    ensures r.Some? ==> forall k :: 0 <= k < r.value ==> !(ss[k].event == e && ss[k].date == d)
    ensures r.None? ==> forall k :: 0 <= k < |ss| ==> !(ss[k].event == e && ss[k].date == d)
    decreases |ss| - i
  {
    if i == |ss| then None
    else if ss[i].event == e && ss[i].date == d then Some(i)
    else FindStandupFrom(ss, e, d, i + 1)
  }

  /** Whether event `e` has a standup dated `d` or later. */
  predicate AnyStandupFrom(s: Store, e: nat, d: Date)
  {
    exists k :: 0 <= k < |s.standups| && s.standups[k].event == e && s.standups[k].date >= d
  }

  /** The first participation of user `u` in standup `k`. */
  function FindParticipation(s: Store, k: nat, u: UserKey): (r: Option<nat>)
    ensures r.Some? ==> r.value < |s.participations| && s.participations[r.value].standup == k && s.participations[r.value].user == u
    ensures r.Some? ==> forall i :: 0 <= i < r.value ==> !(s.participations[i].standup == k && s.participations[i].user == u)
    ensures r.None? ==> forall i :: 0 <= i < |s.participations| ==> !(s.participations[i].standup == k && s.participations[i].user == u)
  {
    FindParticipationFrom(s.participations, k, u, 0)
  }

  function FindParticipationFrom(ps: seq<Participation>, k: nat, u: UserKey, i: nat): (r: Option<nat>)
    requires i <= |ps|
    requires forall j :: 0 <= j < i ==> !(ps[j].standup == k && ps[j].user == u)
    ensures r.Some? ==> i <= r.value < |ps| && ps[r.value].standup == k && ps[r.value].user == u
    ensures r.Some? ==> forall j :: 0 <= j < r.value ==> !(ps[j].standup == k && ps[j].user == u)
    ensures r.None? ==> forall j :: 0 <= j < |ps| ==> !(ps[j].standup == k && ps[j].user == u)
    decreases |ps| - i
  {
    if i == |ps| then None
    else if ps[i].standup == k && ps[i].user == u then Some(i)
    else FindParticipationFrom(ps, k, u, i + 1)
  }

  /** Whether user `u` already has a notified participation in standup `k`. */
  predicate AnyNotified(s: Store, k: nat, u: UserKey)
  {
    exists i :: 0 <= i < |s.participations| && s.participations[i].standup == k
      && s.participations[i].user == u && s.participations[i].notified
  }

  /** Whether participation `pid` has an answer to question `qid`. */
  predicate HasAnswer(answers: seq<Answer>, pid: nat, qid: nat)
  {
    exists j :: 0 <= j < |answers| && answers[j].participation == pid && answers[j].question == qid
  }

  /** Row `j` is the first answer of participation `pid` to question `qid`. */
  predicate FirstAnswerRow(answers: seq<Answer>, pid: nat, qid: nat, j: nat)
  {
    && j < |answers| && answers[j].participation == pid && answers[j].question == qid
    && forall x :: 0 <= x < j ==> !(answers[x].participation == pid && answers[x].question == qid)
  }

  /** The first answer of participation `pid` to question `qid`. */
  function FindAnswer(answers: seq<Answer>, pid: nat, qid: nat): (r: Option<nat>)
    ensures r.Some? <==> HasAnswer(answers, pid, qid)
    ensures r.Some? ==> r.value < |answers| && answers[r.value].participation == pid && answers[r.value].question == qid
    ensures r.Some? ==> forall j :: 0 <= j < r.value ==> !(answers[j].participation == pid && answers[j].question == qid)
  {
    FindAnswerFrom(answers, pid, qid, 0)
  }

  /** The answer found is the first matching one. */
  lemma FirstMatchIsFound(answers: seq<Answer>, pid: nat, qid: nat, at: nat)
    requires FirstAnswerRow(answers, pid, qid, at)
    ensures FindAnswer(answers, pid, qid) == Some(at)
  {
    assert HasAnswer(answers, pid, qid);
  }

  lemma FirstAnswerRowIsFound(answers: seq<Answer>, pid: nat, qid: nat)
    ensures forall j: nat :: FirstAnswerRow(answers, pid, qid, j) ==> FindAnswer(answers, pid, qid) == Some(j)
  {
    forall j: nat | FirstAnswerRow(answers, pid, qid, j)
      ensures FindAnswer(answers, pid, qid) == Some(j)
    {
      FirstMatchIsFound(answers, pid, qid, j);
    }
  }

  function FindAnswerFrom(answers: seq<Answer>, pid: nat, qid: nat, i: nat): (r: Option<nat>)
    requires i <= |answers|
    requires forall j :: 0 <= j < i ==> !(answers[j].participation == pid && answers[j].question == qid)
    ensures r.Some? ==> i <= r.value < |answers| && answers[r.value].participation == pid && answers[r.value].question == qid
    ensures r.Some? ==> forall j :: 0 <= j < r.value ==> !(answers[j].participation == pid && answers[j].question == qid)
    ensures r.None? ==> forall j :: 0 <= j < |answers| ==> !(answers[j].participation == pid && answers[j].question == qid)
    decreases |answers| - i
  {
    if i == |answers| then None
    else if answers[i].participation == pid && answers[i].question == qid then Some(i)
    else FindAnswerFrom(answers, pid, qid, i + 1)
  }

  /** Every participation in `ps` has a user row in `users`. */
  predicate KnownUsers(ps: seq<Participation>, users: map<UserKey, User>)
  {
    forall i :: 0 <= i < |ps| ==> ps[i].user in users
  }

  /** Every participation's user row exists (the foreign key of `StandupParticipation.user`). */
  predicate ParticipantUsersKnown(s: Store)
  {
    KnownUsers(s.participations, s.users)
  }

  // ----- Saving a participation -------------------------------------------

  /**
   * Writes `p` at row `i` (`i == |participations|` inserts a new row).
   * A token is drawn only when `p` has none; saving a completed
   * participation flags its standup's summary for rebuilding.
   */
  function SaveParticipation(s: Store, i: nat, p: Participation, drawn: Token): (r: Store)
    requires i <= |s.participations|
    requires p.completed ==> p.standup < |s.standups|
    ensures |r.participations| == if i == |s.participations| then i + 1 else |s.participations|
    ensures r.participations[i] == p.(token := r.participations[i].token)
    ensures p.token != "" ==> r.participations[i].token == p.token
    ensures p.token == "" ==> r.participations[i].token == drawn && IsToken(r.participations[i].token)
    ensures forall j :: 0 <= j < |s.participations| && j != i ==> r.participations[j] == s.participations[j]
    ensures |r.standups| == |s.standups|
    ensures forall k :: 0 <= k < |s.standups| ==>
      r.standups[k] == if p.completed && k == p.standup then s.standups[k].(rebuild := true) else s.standups[k]
    ensures r.users == s.users && r.events == s.events && r.attendees == s.attendees && r.answers == s.answers
  {
    var saved := if p.token == "" then p.(token := drawn) else p;
    var standups := if p.completed then s.standups[p.standup := s.standups[p.standup].(rebuild := true)] else s.standups;
    var rows := if i == |s.participations| then s.participations + [saved] else s.participations[i := saved];
    s.(standups := standups, participations := rows)
  }

  /** Saving a row again as it was stored changes nothing: the token is never redrawn. */
  lemma SaveParticipationIsIdempotent(s: Store, i: nat, p: Participation, drawn: Token, again: Token)
    requires i <= |s.participations|
    requires p.completed ==> p.standup < |s.standups|
    ensures var r := SaveParticipation(s, i, p, drawn);
      SaveParticipation(r, i, r.participations[i], again) == r
  {
    var r := SaveParticipation(s, i, p, drawn);
    var r2 := SaveParticipation(r, i, r.participations[i], again);
    assert r2.participations == r.participations;
    assert r2.standups == r.standups;
  }

  // ----- Growth and uniqueness -------------------------------------------

  /**
   * `t` is `s` after some lifecycle steps: no row is removed, the identity
   * of every row is kept, the only flags that change are `rebuild` and
   * `notified`, which never go from true back to false, and a token is only
   * ever drawn for a row that had none.
   */
  ghost predicate Grows(s: Store, t: Store)
  {
    && t.users == s.users && t.events == s.events && t.attendees == s.attendees && t.answers == s.answers
    && |s.standups| <= |t.standups|
    && (forall k :: 0 <= k < |s.standups| ==>
         t.standups[k] == s.standups[k].(rebuild := t.standups[k].rebuild)
         && (s.standups[k].rebuild ==> t.standups[k].rebuild))
    && |s.participations| <= |t.participations|
    && (forall i :: 0 <= i < |s.participations| ==>
         t.participations[i] == s.participations[i].(notified := t.participations[i].notified, token := t.participations[i].token)
         && (s.participations[i].notified ==> t.participations[i].notified)
         && (s.participations[i].token != "" ==> t.participations[i].token == s.participations[i].token))
  }

  lemma GrowsTransitive(a: Store, b: Store, c: Store)
    requires Grows(a, b) && Grows(b, c)
    ensures Grows(a, c)
  {
  }

  /** No two standups of one event share a date, among rows from `from` on and those before them. */
  ghost predicate StandupsUniqueFrom(s: Store, from: nat)
  {
    forall j, k :: 0 <= j < k < |s.standups| && from <= k ==>
      !(s.standups[j].event == s.standups[k].event && s.standups[j].date == s.standups[k].date)
  }

  /** No user has two participations in one standup, among rows from `from` on and those before them. */
  ghost predicate ParticipationsUniqueFrom(s: Store, from: nat)
  {
    forall i, j :: 0 <= i < j < |s.participations| && from <= j ==>
      !(s.participations[i].standup == s.participations[j].standup && s.participations[i].user == s.participations[j].user)
  }

  /**
   * With a positive minimum gap `n`, each standup of event `e` from row
   * `from` on is dated more than `n` days after every earlier standup of `e`.
   */
  ghost predicate SpacedFrom(s: Store, e: nat, n: int, from: nat)
  {
    n > 0 ==>
      forall j, k :: 0 <= j < k < |s.standups| && from <= k && s.standups[j].event == e && s.standups[k].event == e ==>
        s.standups[j].date + n < s.standups[k].date
  }

  /** At most one answer per (participation, question): the table's `unique_together`. */
  ghost predicate AnswersUnique(answers: seq<Answer>)
  {
    forall i, j :: 0 <= i < j < |answers| ==>
      !(answers[i].participation == answers[j].participation && answers[i].question == answers[j].question)
  }
}

=== FILE: summary.dfy ===
/**
 * `Standup.send_summary`: whether a standup's summary is published yet,
 * and the messages it is published as. Sending and pinning become the
 * returned message list; the id the chat service gives the header message
 * is a parameter.
 */
module Summary {
  import opened Schedule
  import opened Store
  import opened Ordering

  /** Longer rendered answer blocks are cut to this many characters. */
  const ContentLimit: nat := 1900
  const Ellipsis: string := "..."
  const AnswerSeparator: string := "\n\n"
  const MentionSeparator: string := ", "
  const NotFilledPrefix: string := "Not filled in (yet) by: "

  // ----- Who has and has not filled in --------------------------------------

  /** `StandupParticipationManager.active`: filled in and expected to. */
  predicate IsActive(p: Participation)
  {
    p.completed && !p.readOnly
  }

  /** `StandupParticipationManager.inactive`: expected to fill in, not done yet. */
  predicate IsInactive(p: Participation)
  {
    !p.completed && !p.readOnly
  }

  /** The first name of the user of participation `n`, the sort key of both lists. */
  function FirstName(ps: seq<Participation>, users: map<UserKey, User>, n: nat): string
    requires KnownUsers(ps, users) && n < |ps|
  {
    users[ps[n].user].firstName
  }

  /** `ns` are rows of `ps` ordered by their users' first names. */
  predicate ByFirstName(ps: seq<Participation>, users: map<UserKey, User>, ns: seq<nat>)
    requires KnownUsers(ps, users)
  {
    && (forall i :: 0 <= i < |ns| ==> ns[i] < |ps|)
    && (forall i, j :: 0 <= i < j < |ns| ==> LexLe(FirstName(ps, users, ns[i]), FirstName(ps, users, ns[j])))
  }

  /** No row is listed twice. */
  predicate NoRepeats(ns: seq<nat>)
  {
    forall i, j :: 0 <= i < j < |ns| ==> ns[i] != ns[j]
  }

  /** The participations of standup `k` from row `i` on that `want` admits, keyed by first name. */
  function Candidates(ps: seq<Participation>, users: map<UserKey, User>, k: nat, want: Participation -> bool, i: nat): (r: seq<Keyed>)
    requires KnownUsers(ps, users) && i <= |ps|
    ensures forall x :: x in r ==> i <= x.id < |ps| && x.key == FirstName(ps, users, x.id)
    ensures forall n :: n in Ids(r) <==> 0 <= i <= n < |ps| && ps[n].standup == k && want(ps[n])
    ensures IdsDistinct(r)
    decreases |ps| - i
  {
    if i == |ps| then []
    else
      var rest := Candidates(ps, users, k, want, i + 1);
      if ps[i].standup == k && want(ps[i]) then
        var head := Keyed(FirstName(ps, users, i), i);
        assert Ids([head] + rest) == [i] + Ids(rest);
        ConsKeepsIdsDistinct(head, rest);
        [head] + rest
      else rest
  }

  /** Sorting candidate rows by key orders them by first name and keeps exactly their ids. */
  lemma SortedCandidates(ps: seq<Participation>, users: map<UserKey, User>, c: seq<Keyed>)
    requires KnownUsers(ps, users)
    requires forall x :: x in c ==> x.id < |ps| && x.key == FirstName(ps, users, x.id)
    requires IdsDistinct(c)
    ensures ByFirstName(ps, users, Ids(SortByKey(c)))
    ensures forall n :: n in Ids(SortByKey(c)) <==> n in Ids(c)
    ensures NoRepeats(Ids(SortByKey(c)))
  {
    SortKeepsIdsDistinct(c);
    DistinctIdsNoRepeats(SortByKey(c));
    SortKeepsAllIds(c);
    SortedByFirstName(ps, users, c);
  }

  /** Sorting rows keyed by first name lists their ids in first-name order. */
  lemma SortedByFirstName(ps: seq<Participation>, users: map<UserKey, User>, c: seq<Keyed>)
    requires KnownUsers(ps, users)
    requires forall x :: x in c ==> x.id < |ps| && x.key == FirstName(ps, users, x.id)
    ensures ByFirstName(ps, users, Ids(SortByKey(c)))
  {
    SortedRowsKeyed(ps, users, c);
    KeyedRowsByFirstName(ps, users, SortByKey(c));
  }

  /** Sorting keeps exactly the ids of the rows it sorts. */
  lemma SortKeepsAllIds(c: seq<Keyed>)
    ensures forall n :: n in Ids(SortByKey(c)) <==> n in Ids(c)
  {
    forall n ensures n in Ids(SortByKey(c)) <==> n in Ids(c) {
      SortKeepsIds(c, n);
    }
  }

  /** Rows with distinct ids list no id twice. */
  lemma DistinctIdsNoRepeats(xs: seq<Keyed>)
    requires IdsDistinct(xs)
    ensures NoRepeats(Ids(xs))
  {
    var ids := Ids(xs);
    forall i, j | 0 <= i < j < |ids| ensures ids[i] != ids[j] {
      assert ids[i] == xs[i].id && ids[j] == xs[j].id;
    }
  }

  /** Sorting keeps every row keyed by its user's first name. */
  lemma SortedRowsKeyed(ps: seq<Participation>, users: map<UserKey, User>, c: seq<Keyed>)
    requires KnownUsers(ps, users)
    requires forall x :: x in c ==> x.id < |ps| && x.key == FirstName(ps, users, x.id)
    ensures forall i :: 0 <= i < |SortByKey(c)| ==> SortByKey(c)[i].id < |ps| && SortByKey(c)[i].key == FirstName(ps, users, SortByKey(c)[i].id)
  {
    var sorted := SortByKey(c);
    forall i | 0 <= i < |sorted| ensures sorted[i].id < |ps| && sorted[i].key == FirstName(ps, users, sorted[i].id) {
      assert sorted[i] in multiset(c);
    }
  }

  /** Rows sorted by key, each keyed by its user's first name, list their ids in first-name order. */
  lemma KeyedRowsByFirstName(ps: seq<Participation>, users: map<UserKey, User>, sorted: seq<Keyed>)
    requires KnownUsers(ps, users) && SortedByKey(sorted)
    requires forall i :: 0 <= i < |sorted| ==> sorted[i].id < |ps| && sorted[i].key == FirstName(ps, users, sorted[i].id)
    ensures ByFirstName(ps, users, Ids(sorted))
  {
    var ids := Ids(sorted);
    forall i, j | 0 <= i < j < |ids| ensures LexLe(FirstName(ps, users, ids[i]), FirstName(ps, users, ids[j])) {
      assert ids[i] == sorted[i].id && ids[j] == sorted[j].id;
    }
  }

  /** The participations of standup `k` that `want` admits, ordered by their users' first names. */
  function ParticipantsBy(ps: seq<Participation>, users: map<UserKey, User>, k: nat, want: Participation -> bool): (r: seq<nat>)
    requires KnownUsers(ps, users)
    ensures forall n :: n in r <==> 0 <= n < |ps| && ps[n].standup == k && want(ps[n])
    ensures ByFirstName(ps, users, r)
    ensures NoRepeats(r)
  {
    var c := Candidates(ps, users, k, want, 0);
    SortedCandidates(ps, users, c);
    Ids(SortByKey(c))
  }

  /** `standup.participants.active()`. */
  function Active(ps: seq<Participation>, users: map<UserKey, User>, k: nat): (r: seq<nat>)
    requires KnownUsers(ps, users)
    ensures forall n :: n in r <==> 0 <= n < |ps| && ps[n].standup == k && IsActive(ps[n])
    ensures ByFirstName(ps, users, r)
    ensures NoRepeats(r)
  {
    ParticipantsBy(ps, users, k, IsActive)
  }

  /** `standup.participants.inactive()`. */
  function Inactive(ps: seq<Participation>, users: map<UserKey, User>, k: nat): (r: seq<nat>)
    requires KnownUsers(ps, users)
    ensures forall n :: n in r <==> 0 <= n < |ps| && ps[n].standup == k && IsInactive(ps[n])
    ensures ByFirstName(ps, users, r)
    ensures NoRepeats(r)
  {
    ParticipantsBy(ps, users, k, IsInactive)
  }

  /**
   * Every participation of standup `k` that is not read-only is in exactly
   * one of the two lists; read-only ones are in neither.
   */
  lemma ActiveInactivePartition(ps: seq<Participation>, users: map<UserKey, User>, k: nat, n: nat)
    requires KnownUsers(ps, users)
    requires n < |ps| && ps[n].standup == k
    ensures ps[n].readOnly ==> n !in Active(ps, users, k) && n !in Inactive(ps, users, k)
    ensures !ps[n].readOnly ==> (n in Active(ps, users, k) <==> n !in Inactive(ps, users, k))
  {
  }

  // ----- Rendering one participant's answers -----------------------------------

  /**
   * The text participation `pid` gave for question `qid`: the first matching
   * row's text, or nothing when there is no row or its text is empty.
   */
  function FilledText(answers: seq<Answer>, pid: nat, qid: nat): (r: Option<string>)
    ensures r.Some? ==> r.value != "" && HasAnswer(answers, pid, qid)
    ensures !HasAnswer(answers, pid, qid) ==> r.None?
    ensures forall j: nat :: FirstAnswerRow(answers, pid, qid, j) ==>
      r == (if answers[j].text == "" then None else Some(answers[j].text))
  {
    var found := FindAnswer(answers, pid, qid);
    FirstAnswerRowIsFound(answers, pid, qid);
    if found.Some? && answers[found.value].text != "" then Some(answers[found.value].text) else None
  }

  /** One answer in the summary: the question as a Markdown heading, then the answer. */
  function Entry(q: Question, text: string): string
  {
    "# " + q.text + "\n" + text
  }

  /** The non-empty answers of `pid`, one entry per question, in question order. */
  function AnswerLines(answers: seq<Answer>, pid: nat, qs: seq<Question>): (r: seq<string>)
    ensures |r| <= |qs|
    ensures forall line :: line in r ==>
      exists q :: q in qs && FilledText(answers, pid, q.id).Some? && line == Entry(q, FilledText(answers, pid, q.id).value)
    ensures forall q :: q in qs && FilledText(answers, pid, q.id).Some? ==> Entry(q, FilledText(answers, pid, q.id).value) in r
  {
    if |qs| == 0 then []
    else
      var rest := AnswerLines(answers, pid, qs[1..]);
      assert forall q :: q in qs <==> q == qs[0] || q in qs[1..];
      var text := FilledText(answers, pid, qs[0].id);
      if text.Some? then [Entry(qs[0], text.value)] + rest else rest
  }

  /** Entries can be grouped either way round: the head with the middle, or the middle with the tail. */
  lemma LinesRegroup(head: seq<string>, middle: seq<string>, tail: seq<string>)
    ensures head + (middle + tail) == (head + middle) + tail
  {
  }

  /** The first question's entry, if any, comes before the rest. */
  lemma AnswerLinesCons(answers: seq<Answer>, pid: nat, qs: seq<Question>)
    requires |qs| > 0
    ensures AnswerLines(answers, pid, qs) ==
      (if FilledText(answers, pid, qs[0].id).Some? then [Entry(qs[0], FilledText(answers, pid, qs[0].id).value)] else [])
      + AnswerLines(answers, pid, qs[1..])
  {
  }

  /** The entries for a longer question list extend those of its prefix, in order. */
  lemma {:induction false} AnswerLinesAppend(answers: seq<Answer>, pid: nat, qs: seq<Question>, q: Question)
    ensures AnswerLines(answers, pid, qs + [q]) ==
      AnswerLines(answers, pid, qs)
      + (if FilledText(answers, pid, q.id).Some? then [Entry(q, FilledText(answers, pid, q.id).value)] else [])
    decreases |qs|
  {
    if |qs| == 0 {
      assert AnswerLines(answers, pid, []) == [];
      assert ([] + [q])[1..] == [];
      assert AnswerLines(answers, pid, [q][1..]) == [];
    } else {
      var t0 := FilledText(answers, pid, qs[0].id);
      var head := if t0.Some? then [Entry(qs[0], t0.value)] else [];
      var last := if FilledText(answers, pid, q.id).Some? then [Entry(q, FilledText(answers, pid, q.id).value)] else [];
      assert (qs + [q])[0] == qs[0];
      assert (qs + [q])[1..] == qs[1..] + [q];
      AnswerLinesCons(answers, pid, qs + [q]);
      AnswerLinesCons(answers, pid, qs);
      AnswerLinesAppend(answers, pid, qs[1..], q);
      LinesRegroup(head, AnswerLines(answers, pid, qs[1..]), last);
    }
  }

  /** `sep.join(xs)`. */
  function Join(xs: seq<string>, sep: string): (r: string)
    ensures |xs| == 0 ==> r == ""
    ensures |xs| == 1 ==> r == xs[0]
    ensures |xs| > 0 ==> xs[0] <= r
    decreases |xs|
  {
    if |xs| == 0 then ""
    else if |xs| == 1 then xs[0]
    else xs[0] + sep + Join(xs[1..], sep)
  }

  /** Joining from the left agrees with joining from the right. */
  lemma {:induction false} JoinAppend(xs: seq<string>, sep: string, x: string)
    requires |xs| > 0
    ensures Join(xs + [x], sep) == Join(xs, sep) + sep + x
    decreases |xs|
  {
    if |xs| == 1 {
      assert (xs + [x])[1..] == [x];
    } else {
      assert (xs + [x])[1..] == xs[1..] + [x];
      JoinAppend(xs[1..], sep, x);
    }
  }

  /** Cuts content longer than the limit to its first `ContentLimit` characters plus an ellipsis. */
  function Truncate(c: string): (r: string)
    ensures |c| <= ContentLimit ==> r == c
    ensures |c| > ContentLimit ==> |r| == ContentLimit + |Ellipsis| && r[..ContentLimit] == c[..ContentLimit] && r[ContentLimit..] == Ellipsis
  {
    if |c| > ContentLimit then c[..ContentLimit] + Ellipsis else c
  }

  /** Truncating an already truncated block changes nothing. */
  lemma TruncateIsIdempotent(c: string)
    ensures Truncate(Truncate(c)) == Truncate(c)
  {
    if |c| > ContentLimit {
      var r := Truncate(c);
      assert r[..ContentLimit] == c[..ContentLimit];
    }
  }

  const BlockOpen: string := ">:\n```md\n"
  const BlockClose: string := "```"

  /** One participant's message: a mention, then the content in a Markdown code block. */
  function Block(discordId: string, content: string): (r: string)
    ensures |r| == |discordId| + |content| + 14
    ensures r[..2] == "<@" && r[|r| - 3..] == BlockClose
    ensures r[2 + |discordId|..|discordId| + 11] == BlockOpen
  {
    "<@" + discordId + BlockOpen + content + BlockClose
  }

  /** The user id and the content can be read back from a participant's message. */
  lemma BlockRecovers(discordId: string, content: string)
    ensures var r := Block(discordId, content);
      r[2..2 + |discordId|] == discordId && r[|discordId| + 11..|r| - 3] == content
  {
    var r := Block(discordId, content);
    assert r == "<@" + discordId + BlockOpen + content + BlockClose;
    assert r[2..2 + |discordId|] == discordId;
    assert r[|discordId| + 11..|r| - 3] == content;
  }

  /** The rendered answers of participation `n` to questions `qs`. */
  function Content(answers: seq<Answer>, qs: seq<Question>, n: nat): string
  {
    Truncate(Join(AnswerLines(answers, n, qs), AnswerSeparator))
  }

  /** Participation `n` has at least one answer row, empty or not. */
  predicate AnyAnswer(answers: seq<Answer>, n: nat)
  {
    exists j :: 0 <= j < |answers| && answers[j].participation == n
  }

  /** The message of participant `n`: their mention and their rendered answers. */
  function MessageOf(answers: seq<Answer>, ps: seq<Participation>, users: map<UserKey, User>, qs: seq<Question>, n: nat): string
    requires KnownUsers(ps, users) && n < |ps|
  {
    Block(users[ps[n].user].discordId, Content(answers, qs, n))
  }

  /** One message per participant in `ns` that has answers, in the order of `ns`. */
  function ParticipantMessages(answers: seq<Answer>, ps: seq<Participation>, users: map<UserKey, User>, qs: seq<Question>, ns: seq<nat>): (r: seq<string>)
    requires KnownUsers(ps, users) && forall i :: 0 <= i < |ns| ==> ns[i] < |ps|
    ensures |r| <= |ns|
    ensures forall m :: m in r ==>
      (exists n :: n in ns && AnyAnswer(answers, n) && m == MessageOf(answers, ps, users, qs, n))
    ensures forall n :: n in ns && AnyAnswer(answers, n) ==> MessageOf(answers, ps, users, qs, n) in r
  {
    if |ns| == 0 then []
    else
      var rest := ParticipantMessages(answers, ps, users, qs, ns[1..]);
      assert forall n :: n in ns <==> n == ns[0] || n in ns[1..];
      if AnyAnswer(answers, ns[0]) then [MessageOf(answers, ps, users, qs, ns[0])] + rest else rest
  }

  /**
   * Messages follow the order of the participants: listing one more
   * participant adds their message at the end exactly when they have answers.
   */
  lemma {:induction false} ParticipantMessagesAppend(answers: seq<Answer>, ps: seq<Participation>, users: map<UserKey, User>, qs: seq<Question>, ns: seq<nat>, n: nat)
    requires KnownUsers(ps, users) && (forall i :: 0 <= i < |ns| ==> ns[i] < |ps|) && n < |ps|
    ensures ParticipantMessages(answers, ps, users, qs, ns + [n]) ==
      ParticipantMessages(answers, ps, users, qs, ns)
      + (if AnyAnswer(answers, n) then [MessageOf(answers, ps, users, qs, n)] else [])
    decreases |ns|
  {
    if |ns| == 0 {
      assert ns + [n] == [n];
      assert [n][1..] == [];
    } else {
      assert (ns + [n])[0] == ns[0];
      assert (ns + [n])[1..] == ns[1..] + [n];
      ParticipantMessagesAppend(answers, ps, users, qs, ns[1..], n);
    }
  }

  function Mention(discordId: string): string
  {
    "<@" + discordId + ">"
  }

  function Mentions(ps: seq<Participation>, users: map<UserKey, User>, ns: seq<nat>): (r: seq<string>)
    requires KnownUsers(ps, users) && forall i :: 0 <= i < |ns| ==> ns[i] < |ps|
    ensures |r| == |ns| && forall i :: 0 <= i < |ns| ==> r[i] == Mention(users[ps[ns[i]].user].discordId)
  {
    if |ns| == 0 then [] else [Mention(users[ps[ns[0]].user].discordId)] + Mentions(ps, users, ns[1..])
  }

  /** The opening message: type name and date in bold, then the public link unless the type is private. */
  function Header(t: StandupType, dateText: string, url: string): (r: string)
    ensures "** " + t.name + " **\n** " + dateText + " **\n" <= r
    ensures |r| == |t.name| + |dateText| + 14 + (if t.isPrivate then 0 else 1 + |url|)
    ensures !t.isPrivate ==> r[|r| - |url| - 1] == '\n' && r[|r| - |url|..] == url
  {
    var banner := "** " + t.name + " **\n** " + dateText + " **\n";
    if t.isPrivate then banner else banner + "\n" + url
  }

  // ----- Gating and publishing -------------------------------------------------

  /**
   * When a standup dated `date` may be published while someone has still
   * to fill it in: the type's due time, cut to the whole minute, on that
   * date, plus the publish delay.
   */
  function NotifyAt(date: Date, t: StandupType): (r: int)
    ensures date * MicrosPerDay + t.createAt - MicrosPerMinute < r - t.publishAfter <= date * MicrosPerDay + t.createAt
  {
    date * MicrosPerDay + (t.createAt / MicrosPerMinute) * MicrosPerMinute + t.publishAfter
  }

  /** Seconds and microseconds of the due time do not move the publication time. */
  lemma NotifyAtIgnoresSeconds(date: Date, t: StandupType, u: StandupType)
    requires t.publishAfter == u.publishAfter
    requires t.createAt / MicrosPerMinute == u.createAt / MicrosPerMinute
    ensures NotifyAt(date, t) == NotifyAt(date, u)
  {
  }

  /** Standup `k` has a participant who is expected to fill in and has not. */
  predicate AnyInactive(s: Store, k: nat)
  {
    exists n :: 0 <= n < |s.participations| && s.participations[n].standup == k && IsInactive(s.participations[n])
  }

  /** Standup `k` has a participant who is expected to fill in and has. */
  predicate AnyActive(s: Store, k: nat)
  {
    exists n :: 0 <= n < |s.participations| && s.participations[n].standup == k && IsActive(s.participations[n])
  }

  /** The summary of standup `k` waits at `now`: publication is ahead and someone has still to fill in. */
  predicate Waiting(s: Store, k: nat, now: int)
    requires k < |s.standups| && s.standups[k].event < |s.events|
  {
    now < NotifyAt(s.standups[k].date, s.events[s.standups[k].event].kind) && AnyInactive(s, k)
  }

  datatype Outcome =
    | Deferred
    | NoParticipants
    | Published(messages: seq<string>, store: Store)

  /** `inactive().exists()`: the list is non-empty exactly when someone has still to fill in. */
  lemma InactiveListedIffAny(s: Store, k: nat)
    requires ParticipantUsersKnown(s)
    ensures AnyInactive(s, k) <==> |Inactive(s.participations, s.users, k)| > 0
  {
    var inactive := Inactive(s.participations, s.users, k);
    if AnyInactive(s, k) {
      var n :| 0 <= n < |s.participations| && s.participations[n].standup == k && IsInactive(s.participations[n]);
      assert n in inactive;
    }
    if |inactive| > 0 {
      assert inactive[0] in inactive;
    }
  }

  /** `participants.exists()` on `active()`: the list is non-empty exactly when someone has filled in. */
  lemma ActiveListedIffAny(s: Store, k: nat)
    requires ParticipantUsersKnown(s)
    ensures AnyActive(s, k) <==> |Active(s.participations, s.users, k)| > 0
  {
    var active := Active(s.participations, s.users, k);
    if AnyActive(s, k) {
      var n :| 0 <= n < |s.participations| && s.participations[n].standup == k && IsActive(s.participations[n]);
      assert n in active;
    }
    if |active| > 0 {
      assert active[0] in active;
    }
  }

  /** The store after the header message with id `headerId` is pinned for standup `k`. */
  function Pin(s: Store, k: nat, headerId: string): (r: Store)
    requires k < |s.standups|
    ensures |r.standups| == |s.standups|
    ensures r.standups[k].pinned == Some(headerId) && !r.standups[k].rebuild
    ensures r.standups[k].event == s.standups[k].event && r.standups[k].date == s.standups[k].date
    ensures forall j :: 0 <= j < |s.standups| && j != k ==> r.standups[j] == s.standups[j]
    ensures r.participations == s.participations && r.answers == s.answers
    ensures r.users == s.users && r.events == s.events && r.attendees == s.attendees
  {
    s.(standups := s.standups[k := s.standups[k].(pinned := Some(headerId), rebuild := false)])
  }

  /** The messages of a published summary. */
  function Messages(s: Store, k: nat, dateText: string, url: string): (r: seq<string>)
    requires k < |s.standups| && s.standups[k].event < |s.events| && ParticipantUsersKnown(s)
    ensures |r| >= 1 && r[0] == Header(s.events[s.standups[k].event].kind, dateText, url)
    ensures |r| <= |Active(s.participations, s.users, k)| + 2
  {
    var kind := s.events[s.standups[k].event].kind;
    var active := Active(s.participations, s.users, k);
    var inactive := Inactive(s.participations, s.users, k);
    var missing := if |inactive| > 0 then [NotFilledPrefix + Join(Mentions(s.participations, s.users, inactive), MentionSeparator)] else [];
    [Header(kind, dateText, url)] + ParticipantMessages(s.answers, s.participations, s.users, kind.questions, active) + missing
  }

  /** Message `msg` is the rendered answers of a participant of standup `k` who filled in. */
  predicate FromActive(s: Store, k: nat, qs: seq<Question>, msg: string)
    requires ParticipantUsersKnown(s)
  {
    exists n :: 0 <= n < |s.participations| && s.participations[n].standup == k && IsActive(s.participations[n])
      && msg == MessageOf(s.answers, s.participations, s.users, qs, n)
  }

  /**
   * A published summary opens with the header and carries a message for
   * every participant who filled in and has answers.
   */
  lemma MessagesCoverAnswered(s: Store, k: nat, dateText: string, url: string, n: nat)
    requires k < |s.standups| && s.standups[k].event < |s.events| && ParticipantUsersKnown(s)
    requires n < |s.participations| && s.participations[n].standup == k && IsActive(s.participations[n])
    requires AnyAnswer(s.answers, n)
    ensures var kind := s.events[s.standups[k].event].kind;
      var m := Messages(s, k, dateText, url);
      m[0] == Header(kind, dateText, url) && MessageOf(s.answers, s.participations, s.users, kind.questions, n) in m
  {
    var kind := s.events[s.standups[k].event].kind;
    var active := Active(s.participations, s.users, k);
    var body := ParticipantMessages(s.answers, s.participations, s.users, kind.questions, active);
    assert n in active;
    assert MessageOf(s.answers, s.participations, s.users, kind.questions, n) in body;
  }

  /**
   * When someone has still to fill in, the summary is the header, then the
   * messages of those who filled in, then the line naming, in first-name
   * order, those still to fill in.
   */
  lemma MessagesNameMissing(s: Store, k: nat, dateText: string, url: string)
    requires k < |s.standups| && s.standups[k].event < |s.events| && ParticipantUsersKnown(s)
    requires AnyInactive(s, k)
    ensures var m := Messages(s, k, dateText, url);
      m[|m| - 1] == NotFilledPrefix + Join(Mentions(s.participations, s.users, Inactive(s.participations, s.users, k)), MentionSeparator)
    ensures var kind := s.events[s.standups[k].event].kind;
      var m := Messages(s, k, dateText, url);
      m[1..|m| - 1] == ParticipantMessages(s.answers, s.participations, s.users, kind.questions, Active(s.participations, s.users, k))
  {
    InactiveListedIffAny(s, k);
  }

  /** When no one has still to fill in, the summary is the header followed by the participant messages. */
  lemma MessagesWithoutMissing(s: Store, k: nat, dateText: string, url: string)
    requires k < |s.standups| && s.standups[k].event < |s.events| && ParticipantUsersKnown(s)
    requires !AnyInactive(s, k)
    ensures var kind := s.events[s.standups[k].event].kind;
      Messages(s, k, dateText, url) ==
        [Header(kind, dateText, url)] + ParticipantMessages(s.answers, s.participations, s.users, kind.questions, Active(s.participations, s.users, k))
  {
    InactiveListedIffAny(s, k);
  }

  /** The participant a message of the list belongs to. */
  lemma MessageOwner(answers: seq<Answer>, ps: seq<Participation>, users: map<UserKey, User>, qs: seq<Question>, ns: seq<nat>, j: nat) returns (n: nat)
    requires KnownUsers(ps, users) && forall i :: 0 <= i < |ns| ==> ns[i] < |ps|
    requires j < |ParticipantMessages(answers, ps, users, qs, ns)|
    ensures n in ns && n < |ps| && ParticipantMessages(answers, ps, users, qs, ns)[j] == MessageOf(answers, ps, users, qs, n)
  {
    var r := ParticipantMessages(answers, ps, users, qs, ns);
    assert r[j] in r;
    n :| n in ns && AnyAnswer(answers, n) && r[j] == MessageOf(answers, ps, users, qs, n);
  }

  /** Every message rendered for the `active()` list is the message of a participant who filled in. */
  lemma ActiveMessagesFromActive(s: Store, k: nat, qs: seq<Question>)
    requires ParticipantUsersKnown(s)
    ensures var body := ParticipantMessages(s.answers, s.participations, s.users, qs, Active(s.participations, s.users, k));
      forall j :: 0 <= j < |body| ==> FromActive(s, k, qs, body[j])
  {
    var active := Active(s.participations, s.users, k);
    var body := ParticipantMessages(s.answers, s.participations, s.users, qs, active);
    forall j | 0 <= j < |body|
      ensures FromActive(s, k, qs, body[j])
    {
      var n := MessageOwner(s.answers, s.participations, s.users, qs, active, j);
      assert s.participations[n].standup == k && IsActive(s.participations[n]);
    }
  }

  /** Putting a header in front of messages of participants who filled in leaves only such messages after the header. */
  lemma HeaderAndActiveOnly(s: Store, k: nat, qs: seq<Question>, h: string, body: seq<string>, m: seq<string>)
    requires ParticipantUsersKnown(s)
    requires forall j :: 0 <= j < |body| ==> FromActive(s, k, qs, body[j])
    requires m == [h] + body
    ensures forall i :: 1 <= i < |m| ==> FromActive(s, k, qs, m[i])
  {
    assert forall i :: 1 <= i < |m| ==> m[i] == body[i - 1];
  }

  /** When everyone has filled in, every message after the header belongs to a participant who filled in. */
  lemma MessagesOnlyFromActive(s: Store, k: nat, dateText: string, url: string)
    requires k < |s.standups| && s.standups[k].event < |s.events| && ParticipantUsersKnown(s)
    requires !AnyInactive(s, k)
    ensures var kind := s.events[s.standups[k].event].kind;
      var m := Messages(s, k, dateText, url);
      forall i :: 1 <= i < |m| ==> FromActive(s, k, kind.questions, m[i])
  {
    var kind := s.events[s.standups[k].event].kind;
    var body := ParticipantMessages(s.answers, s.participations, s.users, kind.questions, Active(s.participations, s.users, k));
    MessagesWithoutMissing(s, k, dateText, url);
    ActiveMessagesFromActive(s, k, kind.questions);
    HeaderAndActiveOnly(s, k, kind.questions, Header(kind, dateText, url), body, Messages(s, k, dateText, url));
  }

  /**
   * `Standup.send_summary` for standup `k` at instant `now` (microseconds on
   * the default time zone's ordinal time line). It waits while the publish
   * time is ahead and someone has still to fill in, sends nothing when no
   * one has filled in, and otherwise sends the summary and pins its header.
   */
  function SendSummary(s: Store, k: nat, now: int, dateText: string, url: string, headerId: string): (r: Outcome)
    requires k < |s.standups| && s.standups[k].event < |s.events| && ParticipantUsersKnown(s)
    ensures r.Deferred? <==> Waiting(s, k, now)
    ensures r.NoParticipants? <==> !Waiting(s, k, now) && !AnyActive(s, k)
    ensures r.Published? ==> r.messages == Messages(s, k, dateText, url) && r.store == Pin(s, k, headerId)
  {
    var active := Active(s.participations, s.users, k);
    var inactive := Inactive(s.participations, s.users, k);
    InactiveListedIffAny(s, k);
    ActiveListedIffAny(s, k);
    if now < NotifyAt(s.standups[k].date, s.events[s.standups[k].event].kind) && |inactive| > 0 then Deferred
    else if |active| == 0 then NoParticipants
    else Published(Messages(s, k, dateText, url), Pin(s, k, headerId))
  }

  /** Once a summary is published (not waiting, someone filled in), it is published alike at every later instant. */
  lemma PublicationIsMonotone(s: Store, k: nat, now: int, later: int, dateText: string, url: string, headerId: string)
    requires k < |s.standups| && s.standups[k].event < |s.events| && ParticipantUsersKnown(s)
    requires now <= later
    requires !Waiting(s, k, now) && AnyActive(s, k)
    ensures SendSummary(s, k, later, dateText, url, headerId) == SendSummary(s, k, now, dateText, url, headerId)
  {
  }

  /**
   * Publishing is repeatable: running the summary again on the store it
   * produced sends the same messages and leaves that store as it is.
   */
  lemma RepublishIsStable(s: Store, k: nat, now: int, dateText: string, url: string, headerId: string)
    requires k < |s.standups| && s.standups[k].event < |s.events| && ParticipantUsersKnown(s)
    requires !Waiting(s, k, now) && AnyActive(s, k)
    ensures var r := SendSummary(s, k, now, dateText, url, headerId);
      SendSummary(r.store, k, now, dateText, url, headerId) == r
  {
    var t := Pin(s, k, headerId);
    assert AnyActive(t, k) == AnyActive(s, k) && AnyInactive(t, k) == AnyInactive(s, k);
    assert Messages(t, k, dateText, url) == Messages(s, k, dateText, url);
    assert Pin(t, k, headerId) == t;
  }
}
